=== FILE: README.md ===
# A verified model of a streaming chat assistant

This project models the logic of a small question-and-answer application in Dafny. The browser sends a question to the backend. The backend streams the answer of a chat-completion service back as server-sent events. The page shows the partial answer as it arrives and keeps the conversation in `localStorage`.

There are three parts, plus the standard they meet at:

- **The completion client** (`backend/app/services/llm_client.py`), in `llm_client.dfy`.
  - The API key is normalised from the environment.
  - `get_stream_answer` is a line-oriented parser. It turns the network text chunks of the service's response into the content deltas it yields.
  - `json.loads` is a parameter `decode`, which answers `None` where Python raises.
- **The streaming route** (`backend/app/routes/query.py`), in `query_route.dfy`.
  - The route chooses the question, then frames every non-empty delta as `data: <delta>` followed by a blank line.
  - The framing is modelled twice: as written (`Frame`) and corrected (`SafeFrame`; see Findings).
- **The browser's `EventSource` parser**, in `event_stream.dfy`. It follows the event stream interpretation rules of section 9.2.6 of the WHATWG HTML Living Standard:
  - CRLF, LF and CR all end a line;
  - `data` appends the value and a line feed;
  - one space after the colon is removed;
  - `id` is ignored when it holds NUL;
  - a blank line dispatches the event;
  - a leading byte order mark is skipped;
  - an event that is never terminated is dropped.
- **The chat page** (`frontend/pages/index.tsx`), in `chat_page.dfy`. It is a pure step function over a page state: the input, the messages, `loading`, the preview, the live session with its local `fullMessage` buffer, dark mode and `localStorage`. It is driven by a trace of events:
  - typing and submitting;
  - a chunk or a close from a session;
  - clearing the history;
  - toggling dark mode.

  Mounting the page is a function of the stored values. `JSON.stringify`/`JSON.parse` are a `HistoryCodec` parameter. `Date.now()` values are parameters of the events. The clock and random suffixes used when restoring ids come from an `IdSource` oracle.

`pipeline.dfy` composes the parts. What the extractor yields is framed, parsed by the browser and fed to the live session: `onmessage` receives the data of the `message` events, and `onerror` closes the session at the first `error` event or at the end of the connection. With the corrected framing, when no delta holds CR, the page commits exactly the concatenation of the deltas, or the apology when that is blank. With the framing as written the same holds for deltas without line breaks. Inside a delta, the text after a line feed is parsed as field lines of the same event. A line naming no known field is lost (`AnswerTruncatedAsWritten`). A `data:` line has its prefix removed and is merged into the data (`QueryRoute.FrameMergesDataLine`). An `event:` line sets the event's type, and a delta whose only such line is `event: error` closes the session early (`ErrorDeltaClosesEarly`). Other mixtures of field lines inside a delta, such as several `event:` lines where the last one wins, are not stated.

`text.dfy` holds the sequence and string library the parts share:

- concatenation and mapping;
- Python's `strip` and JavaScript's `trim` as `Strip`, with an independent characterisation (`IsStripOf`) and its uniqueness;
- `str.split` with `Join` as its inverse;
- decimal rendering of `Date.now()`.

Three behaviours of the page worth noting:

- **When the apology is committed.** The page commits the apology whenever the received text is blank after `trim()`, not only when it is empty.
- **Uniqueness of ids.** Ids come from `Date.now()` and can collide, so no uniqueness is claimed.
- **Submitting while a stream is open.** Nothing in `sendMessage` prevents it. The old session is then closed and never commits.

## Model

| member | source | states |
|---|---|---|
| LlmClient.ApiKeyIsSlice | backend/app/services/llm_client.py:8-10 | the normalised key is the raw value (empty when the variable is unset) stripped of surrounding whitespace, then of leading and trailing `"`: it has no `"` at either end, and it is one contiguous slice of the raw value whose removed prefix and suffix are whitespace and quotes only |
| LlmClient.ApiKeyKeepsSpaceInsideQuotes | backend/app/services/llm_client.py:10 | whitespace is stripped before the quotes, so whitespace inside the quotes survives: ` " sk " ` becomes ` sk ` |
| LlmClient.DeltaContent | backend/app/services/llm_client.py:49-53 | content is produced only from an object whose `choices` is a non-empty list, whose first element has a `delta` object, whose `content` is a string; the content is the value at that path |
| LlmClient.CompletionChunkYieldsContent | backend/app/services/llm_client.py:48-54 | a completion chunk, whatever its other fields and choices, yields exactly its content, untrimmed and possibly empty |
| LlmClient.LinesShape | backend/app/services/llm_client.py:39 | every line kept from a network chunk is non-empty and contains no line feed |
| LlmClient.LinesOfOneLine | backend/app/services/llm_client.py:39 | a chunk without a line feed is one line, or no line when it is empty |
| LlmClient.LinesAtLineFeed | backend/app/services/llm_client.py:39-41 | a line feed separates lines: the lines of `a + LF + b` are the lines of `a` followed by those of `b`, in order |
| LlmClient.LineDeltaSpec | backend/app/services/llm_client.py:42-54 | a line yields `content` if and only if it starts with `data: `, is not the end marker, has a payload that is not all whitespace and that decodes, and the decoded value's delta content is `content` |
| LlmClient.ContentLineYields | backend/app/services/llm_client.py:48-54 | a single `data: ` line with a decodable payload carrying content yields exactly that content |
| LlmClient.SkippedLineInvisible | backend/app/services/llm_client.py:44-61 | a line that yields nothing (not a data line, a blank payload, a payload that fails to decode or has another shape) does not end the stream: the lines around it yield what they yield without it |
| LlmClient.LinesDeltasAppend | backend/app/services/llm_client.py:41-54 | lines before any end marker contribute their deltas in their original order |
| LlmClient.DoneCutsAt | backend/app/services/llm_client.py:63-64 | the first `data: [DONE]` line of a chunk cuts the chunk there: the lines after it yield nothing |
| LlmClient.DoneEndsChunk | backend/app/services/llm_client.py:63-64 | the end marker yields nothing, and the rest of its own chunk is dropped |
| LlmClient.StreamDeltasAppend | backend/app/services/llm_client.py:38-39 | no state crosses a chunk boundary: the deltas of two runs of chunks are the deltas of each, concatenated, so a line split across two chunks is two lines and an end marker does not silence the next chunk |
| LlmClient.StreamDeltasSnoc | backend/app/services/llm_client.py:38-41 | one more network chunk adds its own deltas after those of the chunks before it |
| LlmClient.ConsumeLine | backend/app/services/llm_client.py:42-54 | one line extends what was yielded by that line's delta, if any, and `buffer` stays the concatenation of everything yielded |
| LlmClient.ConsumeLines | backend/app/services/llm_client.py:41-64 | the loop over the lines of a chunk yields exactly the chunk's deltas up to the first end marker, keeping `buffer` the concatenation of everything yielded |
| LlmClient.GetStreamAnswer | backend/app/services/llm_client.py:36-64 | the generator yields exactly the stream's deltas, chunk by chunk, and `buffer` always equals the concatenation of everything yielded so far |
| EventStream.DataEvent | backend/app/routes/query.py:28 | between events, `data: v` followed by a blank line dispatches one `message` event whose data is exactly `v` (only the one space after the colon is removed), and leaves the parser between events |
| QueryRoute.QuestionText | backend/app/routes/query.py:20-23 | a non-empty query-string `question` wins; otherwise the request body's question is used when there is a body, and otherwise the question is empty |
| QueryRoute.EventFrames | backend/app/routes/query.py:25-28 | there is one frame per non-empty delta, in order, and each is `data: <delta>` and a blank line |
| QueryRoute.EventFramesSnoc | backend/app/routes/query.py:26-28 | an empty delta adds no frame, and a non-empty delta adds exactly its own frame at the end |
| QueryRoute.RunFrames | backend/app/routes/query.py:25-28 | frames that each deliver their delta, sent one after another, dispatch one `message` event per delta, in order |
| QueryRoute.BodyRoundTrip | backend/app/routes/query.py:25-28 | the browser parses a body of such frames into exactly one `message` event per non-empty delta, in order, with that delta as data |
| QueryRoute.FrameDeliversEach | backend/app/routes/query.py:28 | the frame as written delivers every delta that has no CR or LF whole |
| QueryRoute.EventBodyRoundTrip | backend/app/routes/query.py:25-28 | when no delta contains CR or LF, the response body parses into one `message` event per non-empty delta, in order, whose data is exactly the delta |
| QueryRoute.FrameLosesTextAfterLineFeed | backend/app/routes/query.py:28 | the frame as written of a delta made of a line `v`, a line feed and a line `w` naming no known field (for instance `a` LF `b`) is parsed as one event whose data is `v` alone: the text after the line feed is lost |
| QueryRoute.FrameMergesDataLine | backend/app/routes/query.py:28 | the frame as written of a delta made of a line `v`, a line feed and the line `data: <w>` is parsed as one `message` event whose data is `v`, line feed, `w`: the text is altered rather than lost |
| QueryRoute.FrameRetypesEvent | backend/app/routes/query.py:28 | the frame as written of a delta made of a line `v`, a line feed and the line `event: <t>` is parsed as one event of type `t` with data `v` |
| QueryRoute.RetypedFrameInBody | backend/app/routes/query.py:25-28 | in a stream framed as written, the one-line deltas before a delta made of a line `v` and the line `event: <t>` arrive as `message` events, followed by an event of type `t` with data `v`, whatever comes after |
| QueryRoute.SafeEventFrames | backend/app/routes/query.py:25-28 | the corrected framing also emits one frame per non-empty delta, in order |
| QueryRoute.SafeFrameDelivers | backend/app/routes/query.py:28 | the corrected frame of a delta without CR dispatches one `message` event whose data is the whole delta, line feeds included |
| QueryRoute.SafeFrameAgrees | backend/app/routes/query.py:28 | on a delta without a line break, the corrected frame is exactly the frame as written |
| QueryRoute.SafeEventBodyRoundTrip | backend/app/routes/query.py:25-28 | with the corrected framing, the body parses into one `message` event per non-empty delta, in order, whose data is exactly the delta, for every delta without CR |
| ChatPage.BlankIffAllSpace | frontend/pages/index.tsx:71 | `question.trim()` is falsy exactly when every character is JavaScript white space or a line terminator |
| ChatPage.RestoreId | frontend/pages/index.tsx:47-50 | a restored record keeps its role and content and any truthy id; a record without one gets a non-empty generated id |
| ChatPage.WithIds | frontend/pages/index.tsx:47-50 | restoring ids keeps the number and order of the records and restores each one on its own |
| ChatPage.LoadKeepsRecords | frontend/pages/index.tsx:41-51 | loading the stored history keeps its length, order, roles and contents and every truthy id, and every loaded message has a non-empty id |
| ChatPage.LoadNothing | frontend/pages/index.tsx:42-55 | a missing, empty or unparseable stored history loads as no history |
| ChatPage.DarkModeLoads | frontend/pages/index.tsx:25-28 | dark mode loads as on exactly when the stored string is `true` |
| ChatPage.ToggleThenReload | frontend/pages/index.tsx:64-68 | toggling negates the flag and stores its string, so a reload restores the toggled value |
| ChatPage.ClearThenReload | frontend/pages/index.tsx:150-153 | clearing empties the list and removes the stored record, so a reload gives an empty history |
| ChatPage.HistoryWrites | frontend/pages/index.tsx:31-38 | the stored history changes only to the encoding of the current message list, and only when that list is non-empty; no key other than the two is touched |
| ChatPage.ReloadRestores | frontend/pages/index.tsx:31-56 | with a codec that round-trips, reloading at any point restores exactly the messages shown, ids included |
| ChatPage.MountInv | frontend/pages/index.tsx:24-56 | a freshly mounted page satisfies the page invariant: not loading, no session, ids non-empty, storage in step with the list |
| ChatPage.SubmitInv | frontend/pages/index.tsx:70-139 | submitting keeps the invariant: loading exactly while a session is live, the live text is the preview, ids non-empty, storage in step |
| ChatPage.CloseInv | frontend/pages/index.tsx:101-133 | closing a session keeps the invariant |
| ChatPage.StepInv | frontend/pages/index.tsx:64-153 | every event keeps the invariant |
| ChatPage.RunInv | frontend/pages/index.tsx:64-153 | every trace of events keeps the invariant |
| ChatPage.ShowsPreviewIff | frontend/pages/index.tsx:184 | the preview bubble shows exactly when a live session has received non-empty text |
| ChatPage.BlankSubmitIgnored | frontend/pages/index.tsx:71 | submitting a question that is blank after trimming changes nothing at all |
| ChatPage.SubmitOpens | frontend/pages/index.tsx:71-88 | any other submit appends exactly one user message with the trimmed text, clears the input, sets loading with an empty preview, and opens a session whose handle no earlier session had |
| ChatPage.SubmitOpenThrows | frontend/pages/index.tsx:135-139 | when opening the stream throws, the user message and then `Failed to fetch answer.` are appended, and loading ends with no session |
| ChatPage.SubmittedTextTrimmed | frontend/pages/index.tsx:72-74 | the submitted message is non-empty and has no white space at either end |
| ChatPage.StaleEventsIgnored | frontend/pages/index.tsx:81-83 | a session that is not live delivers nothing and commits nothing |
| ChatPage.StaleStaysStale | frontend/pages/index.tsx:79-104 | no later event makes a closed or replaced session live again |
| ChatPage.SubmitReplacesSession | frontend/pages/index.tsx:80-88 | submitting again closes the live session: the old session becomes stale, and every later chunk or close of it can be removed from the rest of the trace without changing the outcome, so it never commits |
| ChatPage.StaleSessionSilent | frontend/pages/index.tsx:79-104 | once a session is stale, removing all its chunks and its close from any later trace leaves the resulting page unchanged: it never shows a preview and never commits |
| ChatPage.ChunkExtends | frontend/pages/index.tsx:95-98 | a chunk of the live session appends its data to the session's text, the preview shows all of it, and nothing else changes |
| ChatPage.ChunksAccumulate | frontend/pages/index.tsx:93-98 | after any run of chunks, the session's text and the preview are the in-order concatenation of the chunks with no separator |
| ChatPage.PreviewGrows | frontend/pages/index.tsx:97-98 | each preview extends the one before it |
| ChatPage.CloseCommits | frontend/pages/index.tsx:101-133 | closing the live session ends loading and commits exactly one assistant message: the untrimmed text with the preview cleared, or the apology when the text is blank |
| ChatPage.HistoryGrows | frontend/pages/index.tsx:70-153 | every event other than Clear keeps the message list as a prefix of the new one, adding at most two messages |
| ChatPage.HelloConversation | frontend/pages/index.tsx:70-126 | asking `Hello` and receiving `Hi`, ` there`, `!` before the close gives exactly two messages: the question, then `Hi there!` |
| Pipeline.ReceiveThenClose | frontend/pages/index.tsx:93-126 | a fresh session fed a response body and then closed commits exactly one message, built from the concatenated data of the body's `message` events before its first `error` event; the close is `onerror` for that event or for the end of the connection |
| Pipeline.SafeAnswerArrives | backend/app/routes/query.py:25-28 | with the corrected framing, when no delta holds CR, the page commits exactly the concatenation of all the deltas, line feeds included, or the apology when that concatenation is blank |
| Pipeline.StreamedAnswerArrives | backend/app/routes/query.py:25-28 | an instance of `SafeAnswerArrives` for the deltas the extractor yields: with the corrected framing, when no such delta holds CR, the page commits their concatenation, or the apology when that is blank; with the framing as written this fails (`AnswerTruncatedAsWritten`) |
| Pipeline.AnswerTruncatedAsWritten | backend/app/routes/query.py:28 | with the framing as written, a delta made of a line `v` and a line `w` naming no known field is committed as `v` (the answer `a` LF `b` is committed as `a`) |
| Pipeline.RetypedAnswerUnseen | backend/app/routes/query.py:28 | with the framing as written, a delta whose second line is `event: <t>` for a type other than `message` never delivers its data: no listener takes a type other than `error`, and for `error` the `onerror` handler closes the session at it; the page commits the apology |
| Pipeline.AsWrittenAnswerArrives | backend/app/routes/query.py:25-28 | with the framing as written, when no delta holds CR or LF, the page commits exactly the concatenation of the deltas, or the apology when that is blank |
| Pipeline.ErrorDeltaCutsData | backend/app/routes/query.py:25-28 | with the framing as written, the page receives the data of the one-line deltas before a delta whose second line is `event: error`, and nothing from it or after it |
| Pipeline.ErrorDeltaClosesEarly | frontend/pages/index.tsx:101-126 | with the framing as written, a delta whose second line is `event: error` makes `onerror` commit the concatenation of the one-line deltas before it (or the apology when that is blank); the deltas after it are lost |

## Left out

- Transport: the HTTP requests of the completion client, response status checks, the non-streaming `ask` endpoint, the response headers and the `EventSource` URL building are all left out. The network is a sequence of text chunks for the backend and a trace of chunk and close events for the page.
- `backend/app/main.py` (application wiring, CORS, environment loading) is not part of this model. The environment is a map argument of `LlmClient.ApiKey`.
- Rendering: the JSX, styling, the DOM `dark` class effect and the two components are left out. The only part kept is the preview-bubble condition, as `ShowsPreview`.
- The disabled state of the submit button and the Enter-key handling of `QueryForm` are left out. `sendMessage` itself does not check `loading`, so the model lets a submit replace a live session.
- Logging, `console.table` and `forceUpdate` are left out, because they change no state.
- `EventSource` reconnection is left out: the page closes the source in its first `onerror`, so each session has exactly one close. The `retry` field is ignored like an unknown field, because it only sets the reconnection delay.
- Field lines inside a delta under the framing as written: the model states three cases. A line naming no known field is lost, a `data:` line is merged, and a single `event:` line retypes the event. Other mixtures are not stated, such as several `event:` lines (the last one sets the type), an `id:` line (it sets the last event id), or a line starting with a colon (a comment). They all follow from the same parser, but no lemma names them.
- Listeners: only events of type `message` reach `onmessage`, and `onerror` runs for events of type `error` as well as at the end of the connection; the page registers no other listener. `Pipeline.EventData` keeps the data of `message` events, and `Pipeline.BeforeError` stops at the first `error` event, where `onerror` closes the source. The corrected framing sends only `data:` lines, so all its events have type `message`. The framing as written lets a delta supply an `event:` line (`QueryRoute.FrameRetypesEvent`).
- Storage failures: every `localStorage` call (index.tsx lines 26, 36, 42, 67 and 151) is modelled as a total map update or lookup that always succeeds, although the calls are unguarded. A `setItem` past the quota throws `QuotaExceededError`, and every call throws `SecurityError` when storage is blocked. A throw in the save effect, or in the mount effects' `getItem` (lines 26 and 42), is a throw inside a React effect: with no error boundary it unmounts the whole page. In `toggleDarkMode` (lines 64-68), `setDarkMode` is already queued when `setItem` throws, so the mode flips but is not stored. `ChatPage.Inv`, `ChatPage.HistoryWrites` and `ChatPage.ReloadRestores` hold only when every storage call succeeds.
- The page's chunk data is whatever the browser's parser dispatches. The model of that parser works on decoded characters, so UTF-8 decoding is left out.
- JSON: `json.loads`, `JSON.parse` and `JSON.stringify` are abstract parameters. A stored history record whose id is missing or falsy is represented by the empty id. Among `json.loads` results, strings, booleans, lists and objects carry their values; `null` has no value, and numbers are represented by their kind only, because the extractor never reads a number's value.
- Async scheduling: each handler runs to completion, and React's state updates from one handler are applied together before the save effect runs.
- ChatPage.Mount: the two mount effects are one function of the stored values. The mount-only dependency list makes them run once, so there is no LoadOnMount event.
- ChatPage.RestoreId: ids are not claimed to be unique. `Date.now()` ids can collide within a millisecond, and the random suffix is an oracle.
- QueryRoute.SafeEventBodyRoundTrip: it is stated only for deltas without CR. A CR inside a delta would also end a line in the corrected framing; the corrected framer splits on line feeds only.

## Findings

| source | as written | input that shows it | evidently intended | confidence | as-written member | corrected member |
|---|---|---|---|---|---|---|
| backend/app/routes/query.py:28 | each delta becomes a single `data:` line; a line feed inside the delta ends that line, and the text after it is read as a separate field line | the delta `a`, line feed, `b` is delivered to the page as `a`; `b` is taken for an unknown field and dropped | the page receives every delta whole, line feeds included; model output often contains line feeds | not executed | QueryRoute.FrameLosesTextAfterLineFeed | QueryRoute.SafeEventBodyRoundTrip |
| backend/app/routes/query.py:28 | the same single `data:` line lets a line of the delta that starts with `event:` set the event's type | the delta `a`, line feed, `event: t` is dispatched as an event of type `t`, which the page's `onmessage` handler never receives, and the page commits the apology; with `event: error` the page's `onerror` closes the session at that delta and every later delta is lost | every delta is delivered as a `message` event | not executed | QueryRoute.FrameRetypesEvent | QueryRoute.SafeEventBodyRoundTrip |

=== FILE: chat_page.dfy ===
/**
 * The chat page of the frontend (frontend/pages/index.tsx) as a pure state
 * machine: the page's React state, its `localStorage`, and the one
 * `EventSource` session it may have open, driven by a trace of events — the
 * user typing, submitting, clearing the history and toggling dark mode, and
 * the open session delivering a message or failing.
 *
 * Each event handler runs to completion before the next event, and the
 * effects that depend on `messages` run right after the handler that changed
 * them, as React does after the re-render. `JSON.stringify`/`JSON.parse` of the
 * history are a `HistoryCodec` parameter; `Date.now()` values are parameters
 * of the events; the random part of generated ids comes from an oracle.
 */
module ChatPage {
  import opened Wrappers
  import opened Text

  // ---------------------------------------------------------------------------
  // Data
  // ---------------------------------------------------------------------------

  datatype Role = User | Assistant

  datatype Message = Message(role: Role, content: string, id: string)

  /**
   * The open `EventSource`: the handle tells sessions apart, and `buffer` is
   * the handler's local `fullMessage`, the text received so far.
   */
  datatype Session = Session(handle: nat, buffer: string)

  /**
   * The page: the input box, the message list, the loading flag, the
   * streaming preview (`currentStreamingMessage`), the live session if any,
   * the handle the next session gets, dark mode, and `localStorage`.
   */
  datatype Page = Page(question: string, messages: seq<Message>, loading: bool, preview: string,
                       live: Option<Session>, nextHandle: nat, darkMode: bool,
                       store: map<string, string>)

  /** `JSON.stringify` and `JSON.parse` of a message list; `decode` is `None` where parsing fails. */
  datatype HistoryCodec = HistoryCodec(encode: seq<Message> -> string, decode: string -> Option<seq<Message>>)

  /**
   * A faithful codec: `JSON.stringify` of a list is never the empty string
   * (it is at least `[]`) and parses back to the same list.
   */
  ghost predicate Faithful(codec: HistoryCodec) {
    forall ms: seq<Message> :: codec.encode(ms) != "" && codec.decode(codec.encode(ms)) == Some(ms)
  }

  /** Oracles for generated ids: `Date.now()` and the random suffix for the k-th restored record. */
  datatype IdSource = IdSource(clock: nat -> nat, random: nat -> string)

  datatype Opening = Opened | OpenThrows(now: nat)

  datatype Event =
    | Type(text: string)
    | Submit(now: nat, opening: Opening)
    | Chunk(handle: nat, data: string)
    | Close(handle: nat, now: nat)
    | Clear
    | ToggleDark

  const HistoryKey := "chat-history"
  const DarkModeKey := "dark-mode"
  const SorryText := "Sorry, there was an error getting a response."
  const FailedText := "Failed to fetch answer."

  // ---------------------------------------------------------------------------
  // JavaScript strings
  // ---------------------------------------------------------------------------

  /** The characters `String.prototype.trim` removes: white space and line terminators. */
  predicate IsJsSpace(c: char) {
    var n := c as int;
    || 0x09 <= n <= 0x0D
    || n == 0x20 || n == 0xA0 || n == 0x1680
    || 0x2000 <= n <= 0x200A
    || n == 0x2028 || n == 0x2029 || n == 0x202F || n == 0x205F || n == 0x3000 || n == 0xFEFF
  }

  function Trim(s: string): string {
    Strip(s, IsJsSpace)
  }

  /** `s.trim()` is falsy. */
  predicate Blank(s: string) {
    Trim(s) == ""
  }

  /** A string is blank exactly when every character of it is white space. */
  lemma BlankIffAllSpace(s: string)
    ensures Blank(s) <==> All(s, IsJsSpace)
  {
    StripEmptyIffAll(s, IsJsSpace);
  }

  /** `Date.now().toString()`. */
  function NowId(now: nat): (id: string)
    ensures id != ""
  {
    Decimal(now)
  }

  // ---------------------------------------------------------------------------
  // Loading the page
  // ---------------------------------------------------------------------------

  /** `localStorage.getItem('dark-mode') === 'true'`. */
  function StoredDarkMode(store: map<string, string>): bool {
    DarkModeKey in store && store[DarkModeKey] == "true"
  }

  /**
   * The k-th restored record with an id: a truthy id is kept, an empty or
   * missing one is replaced by `Date.now().toString()` and a random suffix.
   */
  function RestoreId(record: Message, k: nat, ids: IdSource): (m: Message)
    ensures m.role == record.role && m.content == record.content
    ensures record.id != "" ==> m.id == record.id
    ensures m.id != ""
  {
    if record.id != "" then record
    else
      var id := NowId(ids.clock(k)) + ids.random(k);
      assert id[0] == NowId(ids.clock(k))[0];
      record.(id := id)
  }

  /** The restored records, each with an id. */
  function WithIds(records: seq<Message>, ids: IdSource): (ms: seq<Message>)
    ensures |ms| == |records|
    ensures forall k | 0 <= k < |ms| :: ms[k] == RestoreId(records[k], k, ids)
  {
    seq(|records|, k requires 0 <= k < |records| => RestoreId(records[k], k, ids))
  }

  /**
   * The history as the load effect restores it: nothing when the stored value
   * is missing, empty or unparseable, otherwise the parsed records with ids.
   */
  function LoadHistory(store: map<string, string>, codec: HistoryCodec, ids: IdSource): seq<Message> {
    if HistoryKey !in store || store[HistoryKey] == "" then []
    else match codec.decode(store[HistoryKey])
      case None => []
      case Some(records) => WithIds(records, ids)
  }

  /** The save effect: a non-empty message list is written to storage, an empty one is not. */
  function Save(p: Page, codec: HistoryCodec): (r: Page)
    ensures r.messages == p.messages
  {
    if |p.messages| > 0 then p.(store := p.store[HistoryKey := codec.encode(p.messages)]) else p
  }

  /**
   * The page after its mount effects: dark mode and history loaded from
   * `store`, and the loaded history saved back when it is not empty.
   */
  function Mount(store: map<string, string>, codec: HistoryCodec, ids: IdSource): Page {
    var messages := LoadHistory(store, codec, ids);
    Save(Page("", messages, false, "", None, 0, StoredDarkMode(store), store), codec)
  }

  // ---------------------------------------------------------------------------
  // Handlers
  // ---------------------------------------------------------------------------

  /**
   * `sendMessage`: a blank question does nothing. Otherwise the trimmed
   * question is appended as a user message, the input is cleared, loading
   * starts and the preview is emptied; the old session is closed and a new
   * one opened. When opening throws, the failure text is appended as an
   * assistant message and loading stops.
   */
  function SubmitStep(p: Page, now: nat, opening: Opening, codec: HistoryCodec): Page {
    if Blank(p.question) then p
    else
      var sent := p.messages + [Message(User, Trim(p.question), NowId(now))];
      match opening
      case Opened =>
        Save(p.(question := "", messages := sent, loading := true, preview := "",
                live := Some(Session(p.nextHandle, "")), nextHandle := p.nextHandle + 1), codec)
      case OpenThrows(later) =>
        Save(p.(question := "", messages := sent + [Message(Assistant, FailedText, NowId(later))],
                loading := false, preview := "", live := None), codec)
  }

  /**
   * `onmessage` of the live session appends the data to the session's text
   * and shows all of it; a closed session delivers nothing.
   */
  function ChunkStep(p: Page, handle: nat, data: string): Page {
    if p.live.Some? && p.live.value.handle == handle then
      var text := p.live.value.buffer + data;
      p.(live := Some(Session(handle, text)), preview := text)
    else p
  }

  /**
   * `onerror` of the live session closes it and stops loading, then commits
   * one assistant message: the text received, untrimmed, when it is not
   * blank (and the preview is cleared), otherwise the apology.
   */
  function CloseStep(p: Page, handle: nat, now: nat, codec: HistoryCodec): Page {
    if p.live.Some? && p.live.value.handle == handle then
      var text := p.live.value.buffer;
      if !Blank(text) then
        Save(p.(live := None, loading := false, preview := "",
                messages := p.messages + [Message(Assistant, text, NowId(now))]), codec)
      else
        Save(p.(live := None, loading := false,
                messages := p.messages + [Message(Assistant, SorryText, NowId(now))]), codec)
    else p
  }

  /** The clear-history button: the stored history is removed and the list emptied. */
  function ClearStep(p: Page): Page {
    p.(messages := [], store := p.store - {HistoryKey})
  }

  /** `toggleDarkMode`: the flag is negated and its `toString()` stored. */
  function ToggleStep(p: Page): Page {
    var dark := !p.darkMode;
    p.(darkMode := dark, store := p.store[DarkModeKey := if dark then "true" else "false"])
  }

  function Step(p: Page, e: Event, codec: HistoryCodec): Page {
    match e
    case Type(text) => p.(question := text)
    case Submit(now, opening) => SubmitStep(p, now, opening, codec)
    case Chunk(handle, data) => ChunkStep(p, handle, data)
    case Close(handle, now) => CloseStep(p, handle, now, codec)
    case Clear => ClearStep(p)
    case ToggleDark => ToggleStep(p)
  }

  function Run(p: Page, events: seq<Event>, codec: HistoryCodec): Page
    decreases |events|
  {
    if events == [] then p else Run(Step(p, events[0], codec), events[1..], codec)
  }

  /** The preview bubble is rendered: there is preview text and the page is loading. */
  predicate ShowsPreview(p: Page) {
    p.preview != "" && p.loading
  }

  // ---------------------------------------------------------------------------
  // Invariant
  // ---------------------------------------------------------------------------

  /**
   * Storage restores no history: the key is missing or empty, or its value
   * does not parse, or parses to the empty list.
   */
  predicate NoStoredHistory(store: map<string, string>, codec: HistoryCodec) {
    HistoryKey !in store || store[HistoryKey] == ""
    || codec.decode(store[HistoryKey]) == None || codec.decode(store[HistoryKey]) == Some([])
  }

  /**
   * What holds of every page: loading exactly while a session is live; the
   * live session's text is the preview and its handle was issued; every
   * message has a non-empty id; and storage holds the current history — the
   * encoded list when it is not empty, nothing restorable when it is.
   */
  predicate Inv(p: Page, codec: HistoryCodec) {
    && (p.loading <==> p.live.Some?)
    && (p.live.Some? ==> p.live.value.handle < p.nextHandle && p.preview == p.live.value.buffer)
    && (forall k | 0 <= k < |p.messages| :: p.messages[k].id != "")
    && (p.messages != [] ==> HistoryKey in p.store && p.store[HistoryKey] == codec.encode(p.messages))
    && (p.messages == [] ==> NoStoredHistory(p.store, codec))
  }

  /** Every message of a list plus new messages with non-empty ids has a non-empty id. */
  lemma IdsAppend(ms: seq<Message>, more: seq<Message>)
    requires forall k | 0 <= k < |ms| :: ms[k].id != ""
    requires forall k | 0 <= k < |more| :: more[k].id != ""
    ensures forall k | 0 <= k < |ms + more| :: (ms + more)[k].id != ""
  {
    forall k | 0 <= k < |ms + more|
      ensures (ms + more)[k].id != ""
    {
      if k < |ms| {
        assert (ms + more)[k] == ms[k];
      } else {
        assert (ms + more)[k] == more[k - |ms|];
      }
    }
  }

  /** A freshly mounted page satisfies the invariant. */
  lemma MountInv(store: map<string, string>, codec: HistoryCodec, ids: IdSource)
    ensures Inv(Mount(store, codec, ids), codec)
  {
  }

  /** Submitting preserves the invariant. */
  lemma SubmitInv(p: Page, now: nat, opening: Opening, codec: HistoryCodec)
    requires Inv(p, codec)
    ensures Inv(SubmitStep(p, now, opening, codec), codec)
  {
    if !Blank(p.question) {
      var user := Message(User, Trim(p.question), NowId(now));
      IdsAppend(p.messages, [user]);
      if opening.OpenThrows? {
        IdsAppend(p.messages + [user], [Message(Assistant, FailedText, NowId(opening.now))]);
      }
    }
  }

  /** Closing a session preserves the invariant. */
  lemma CloseInv(p: Page, handle: nat, now: nat, codec: HistoryCodec)
    requires Inv(p, codec)
    ensures Inv(CloseStep(p, handle, now, codec), codec)
  {
    if p.live.Some? && p.live.value.handle == handle {
      var text := p.live.value.buffer;
      IdsAppend(p.messages, [Message(Assistant, if !Blank(text) then text else SorryText, NowId(now))]);
    }
  }

  /** Every event preserves the invariant. */
  lemma StepInv(p: Page, e: Event, codec: HistoryCodec)
    requires Inv(p, codec)
    ensures Inv(Step(p, e, codec), codec)
  {
    match e
    case Submit(now, opening) => SubmitInv(p, now, opening, codec);
    case Close(handle, now) => CloseInv(p, handle, now, codec);
    case _ =>
  }

  /** Every trace preserves the invariant. */
  lemma {:induction false} RunInv(p: Page, events: seq<Event>, codec: HistoryCodec)
    requires Inv(p, codec)
    ensures Inv(Run(p, events, codec), codec)
    decreases |events|
  {
    if events != [] {
      StepInv(p, events[0], codec);
      RunInv(Step(p, events[0], codec), events[1..], codec);
    }
  }

  /** The preview bubble shows exactly when a live session has received non-empty text. */
  lemma ShowsPreviewIff(p: Page, codec: HistoryCodec)
    requires Inv(p, codec)
    ensures ShowsPreview(p) <==> p.live.Some? && p.live.value.buffer != ""
  {
  }

  // ---------------------------------------------------------------------------
  // Submitting
  // ---------------------------------------------------------------------------

  /** Submitting a blank question changes nothing at all. */
  lemma BlankSubmitIgnored(p: Page, now: nat, opening: Opening, codec: HistoryCodec)
    requires All(p.question, IsJsSpace)
    ensures Step(p, Submit(now, opening), codec) == p
  {
    BlankIffAllSpace(p.question);
  }

  /**
   * Submitting a question that is not blank appends exactly one user message
   * with the trimmed text, clears the input, starts loading with an empty
   * preview, and opens a new session whose handle no earlier session had.
   */
  lemma SubmitOpens(p: Page, now: nat, codec: HistoryCodec)
    requires Inv(p, codec) && !All(p.question, IsJsSpace)
    ensures var r := Step(p, Submit(now, Opened), codec);
      && r.messages == p.messages + [Message(User, Trim(p.question), NowId(now))]
      && r.question == "" && r.loading && r.preview == ""
      && r.live == Some(Session(p.nextHandle, ""))
      && (p.live.Some? ==> p.live.value.handle != r.live.value.handle)
  {
    BlankIffAllSpace(p.question);
  }

  /**
   * When opening the session throws, the user message and then the failure
   * text are appended, and loading ends with no session.
   */
  lemma SubmitOpenThrows(p: Page, now: nat, later: nat, codec: HistoryCodec)
    requires !All(p.question, IsJsSpace)
    ensures var r := Step(p, Submit(now, OpenThrows(later)), codec);
      && r.messages == p.messages + [Message(User, Trim(p.question), NowId(now)),
                                     Message(Assistant, FailedText, NowId(later))]
      && r.question == "" && !r.loading && r.preview == "" && r.live == None
  {
    BlankIffAllSpace(p.question);
  }

  /** The submitted text is trimmed: it has no white space at either end. */
  lemma SubmittedTextTrimmed(p: Page, now: nat, opening: Opening, codec: HistoryCodec)
    requires !All(p.question, IsJsSpace)
    ensures var r := Step(p, Submit(now, opening), codec);
      && |r.messages| > |p.messages|
      && var text := r.messages[|p.messages|].content;
         text != "" && !IsJsSpace(text[0]) && !IsJsSpace(text[|text| - 1])
  {
    BlankIffAllSpace(p.question);
    StripEnds(p.question, IsJsSpace);
  }

  // ---------------------------------------------------------------------------
  // Sessions
  // ---------------------------------------------------------------------------

  /** A session that is not the live one: closed, or never opened. */
  predicate Stale(p: Page, handle: nat) {
    p.live.None? || p.live.value.handle != handle
  }

  /** A session that is not live delivers nothing and commits nothing. */
  lemma StaleEventsIgnored(p: Page, handle: nat, data: string, now: nat, codec: HistoryCodec)
    requires Stale(p, handle)
    ensures Step(p, Chunk(handle, data), codec) == p
    ensures Step(p, Close(handle, now), codec) == p
  {
  }

  /**
   * A session once replaced or closed stays silent: no later event makes an
   * issued handle live again.
   */
  lemma StaleStaysStale(p: Page, e: Event, handle: nat, codec: HistoryCodec)
    requires Inv(p, codec) && Stale(p, handle) && handle < p.nextHandle
    ensures var r := Step(p, e, codec); Stale(r, handle) && handle < r.nextHandle
  {
  }

  /** A chunk or close event of the session `handle`. */
  predicate AddressedTo(e: Event, handle: nat) {
    (e.Chunk? || e.Close?) && e.handle == handle
  }

  /** The trace with every chunk and close of the session `handle` removed. */
  function Without(events: seq<Event>, handle: nat): (r: seq<Event>)
    ensures |r| <= |events|
    ensures forall k | 0 <= k < |r| :: !AddressedTo(r[k], handle)
    decreases |events|
  {
    if events == [] then []
    else (if AddressedTo(events[0], handle) then [] else [events[0]]) + Without(events[1..], handle)
  }

  /**
   * A stale session is silent for the rest of any trace: removing all its
   * chunks and its close changes nothing, so it never shows a preview and
   * never commits.
   */
  lemma {:induction false} StaleSessionSilent(p: Page, events: seq<Event>, handle: nat, codec: HistoryCodec)
    requires Inv(p, codec) && Stale(p, handle) && handle < p.nextHandle
    ensures Run(p, events, codec) == Run(p, Without(events, handle), codec)
    decreases |events|
  {
    if events != [] {
      var e, rest := events[0], events[1..];
      var q := Step(p, e, codec);
      StepInv(p, e, codec);
      StaleStaysStale(p, e, handle, codec);
      StaleSessionSilent(q, rest, handle, codec);
      if AddressedTo(e, handle) {
        StaleEventsIgnored(p, handle, if e.Chunk? then e.data else [], if e.Close? then e.now else 0, codec);
        assert Without(events, handle) == [] + Without(rest, handle);
        assert [] + Without(rest, handle) == Without(rest, handle);
      } else {
        assert Without(events, handle) == [e] + Without(rest, handle);
        RunCons(p, e, Without(rest, handle), codec);
      }
    }
  }

  /**
   * Submitting again replaces the live session: the old one becomes stale,
   * and whatever it still delivers afterwards is ignored for good.
   */
  lemma SubmitReplacesSession(p: Page, now: nat, opening: Opening, rest: seq<Event>, codec: HistoryCodec)
    requires Inv(p, codec) && p.live.Some? && !All(p.question, IsJsSpace)
    ensures var r := Step(p, Submit(now, opening), codec);
      Stale(r, p.live.value.handle) && p.live.value.handle < r.nextHandle
    ensures var h := p.live.value.handle;
      Run(p, [Submit(now, opening)] + rest, codec) == Run(p, [Submit(now, opening)] + Without(rest, h), codec)
  {
    BlankIffAllSpace(p.question);
    var h := p.live.value.handle;
    var r := Step(p, Submit(now, opening), codec);
    SubmitInv(p, now, opening, codec);
    StaleSessionSilent(r, rest, h, codec);
    RunCons(p, Submit(now, opening), rest, codec);
    RunCons(p, Submit(now, opening), Without(rest, h), codec);
  }

  /** Chunk events of one session, one per piece of data, in order. */
  function Chunks(handle: nat, data: seq<string>): (events: seq<Event>)
    ensures |events| == |data|
  {
    if data == [] then [] else [Chunk(handle, data[0])] + Chunks(handle, data[1..])
  }

  /** Each chunk of the live session extends its text, the preview shows the whole of it, and nothing else changes. */
  lemma ChunkExtends(p: Page, data: string, codec: HistoryCodec)
    requires p.live.Some?
    ensures var text := p.live.value.buffer + data;
      Step(p, Chunk(p.live.value.handle, data), codec)
        == p.(live := Some(Session(p.live.value.handle, text)), preview := text)
  {
  }

  /**
   * The preview is the in-order concatenation of the chunks of the live
   * session, with nothing between them; each preview extends the one before.
   */
  lemma {:induction false} ChunksAccumulate(p: Page, data: seq<string>, codec: HistoryCodec)
    requires p.live.Some?
    ensures var r := Run(p, Chunks(p.live.value.handle, data), codec);
      && r.live == Some(Session(p.live.value.handle, p.live.value.buffer + Concat(data)))
      && (data != [] ==> r.preview == p.live.value.buffer + Concat(data))
      && r.messages == p.messages && r.loading == p.loading && r.store == p.store
    decreases |data|
  {
    var h, buffer := p.live.value.handle, p.live.value.buffer;
    if data == [] {
      assert Chunks(h, data) == [];
      assert buffer + Concat(data) == buffer;
    } else {
      var first, rest := data[0], data[1..];
      var q := Step(p, Chunk(h, first), codec);
      ChunkExtends(p, first, codec);
      RunCons(p, Chunk(h, first), Chunks(h, rest), codec);
      ChunksAccumulate(q, rest, codec);
      assert (buffer + first) + Concat(rest) == buffer + Concat(data) by {
        assert data == [first] + rest;
        ConcatCons(first, rest);
      }
      if rest == [] {
        assert Chunks(h, rest) == [] && Concat(rest) == [];
        assert buffer + first == buffer + Concat(data);
      }
    }
  }

  /** Each preview of a session extends the previous one. */
  lemma PreviewGrows(p: Page, data: string, codec: HistoryCodec)
    requires Inv(p, codec) && p.live.Some?
    ensures p.preview <= Step(p, Chunk(p.live.value.handle, data), codec).preview
  {
    assert p.preview + data == p.live.value.buffer + data;
  }

  /** Running a trace split in two is running each part in turn. */
  lemma {:induction false} RunAppend(p: Page, a: seq<Event>, b: seq<Event>, codec: HistoryCodec)
    ensures Run(p, a + b, codec) == Run(Run(p, a, codec), b, codec)
    decreases |a|
  {
    if a == [] {
      assert a + b == b;
    } else {
      assert (a + b)[0] == a[0];
      assert (a + b)[1..] == a[1..] + b;
      RunAppend(Step(p, a[0], codec), a[1..], b, codec);
    }
  }

  /**
   * Closing the live session ends loading and commits exactly one assistant
   * message: the text received, untrimmed, with the preview cleared, or the
   * apology when that text is blank.
   */
  lemma CloseCommits(p: Page, now: nat, codec: HistoryCodec)
    requires p.live.Some?
    ensures var r := Step(p, Close(p.live.value.handle, now), codec);
      var text := p.live.value.buffer;
      && !r.loading && r.live == None
      && r.messages == p.messages + [Message(Assistant, if All(text, IsJsSpace) then SorryText else text, NowId(now))]
      && (!All(text, IsJsSpace) ==> r.preview == "")
  {
    BlankIffAllSpace(p.live.value.buffer);
  }

  /** The message list only grows, except through Clear, and by at most two messages per event. */
  lemma HistoryGrows(p: Page, e: Event, codec: HistoryCodec)
    requires e != Clear
    ensures var r := Step(p, e, codec);
      p.messages <= r.messages && |r.messages| <= |p.messages| + 2
  {
  }

  // ---------------------------------------------------------------------------
  // Storage
  // ---------------------------------------------------------------------------

  /**
   * The stored history is only ever written with the current, non-empty
   * message list; only the history and dark mode keys of storage change.
   */
  lemma HistoryWrites(p: Page, e: Event, codec: HistoryCodec)
    ensures var r := Step(p, e, codec);
      && (HistoryKey in r.store && (HistoryKey !in p.store || r.store[HistoryKey] != p.store[HistoryKey])
          ==> r.messages != [] && r.store[HistoryKey] == codec.encode(r.messages))
      && (forall key | key != HistoryKey && key != DarkModeKey ::
            (key in r.store <==> key in p.store) && (key in r.store ==> r.store[key] == p.store[key]))
  {
  }

  /** Loading keeps every record, in order, with its role and content; every id is non-empty. */
  lemma LoadKeepsRecords(store: map<string, string>, codec: HistoryCodec, ids: IdSource, records: seq<Message>)
    requires HistoryKey in store && store[HistoryKey] != "" && codec.decode(store[HistoryKey]) == Some(records)
    ensures var ms := LoadHistory(store, codec, ids);
      && |ms| == |records|
      && forall k | 0 <= k < |ms| ::
           && ms[k].role == records[k].role && ms[k].content == records[k].content
           && (records[k].id != "" ==> ms[k].id == records[k].id)
           && ms[k].id != ""
  {
  }

  /** A missing, empty or unparseable stored history loads as no history. */
  lemma LoadNothing(store: map<string, string>, codec: HistoryCodec, ids: IdSource)
    requires HistoryKey !in store || store[HistoryKey] == "" || codec.decode(store[HistoryKey]) == None
    ensures LoadHistory(store, codec, ids) == []
  {
  }

  /** Dark mode loads as on exactly when the stored string is `true`. */
  lemma DarkModeLoads(store: map<string, string>, codec: HistoryCodec, ids: IdSource)
    ensures Mount(store, codec, ids).darkMode <==> DarkModeKey in store && store[DarkModeKey] == "true"
  {
  }

  /** Toggling and reloading restores the toggled dark mode. */
  lemma ToggleThenReload(p: Page, codec: HistoryCodec, ids: IdSource)
    ensures Mount(Step(p, ToggleDark, codec).store, codec, ids).darkMode == !p.darkMode
  {
  }

  /** Clearing and reloading gives an empty history. */
  lemma ClearThenReload(p: Page, codec: HistoryCodec, ids: IdSource)
    ensures Step(p, Clear, codec).messages == []
    ensures Mount(Step(p, Clear, codec).store, codec, ids).messages == []
  {
  }

  /**
   * With a faithful codec, reloading the page at any point restores exactly
   * the messages it showed, ids included.
   */
  lemma ReloadRestores(p: Page, codec: HistoryCodec, ids: IdSource)
    requires Inv(p, codec) && Faithful(codec)
    ensures Mount(p.store, codec, ids).messages == p.messages
  {
    if p.messages != [] {
      var ms := LoadHistory(p.store, codec, ids);
      assert codec.decode(codec.encode(p.messages)) == Some(p.messages);
      assert |ms| == |p.messages|;
      forall k | 0 <= k < |ms|
        ensures ms[k] == p.messages[k]
      {
      }
    }
  }

  // ---------------------------------------------------------------------------
  // A conversation
  // ---------------------------------------------------------------------------

  /** Running a trace one event after another. */
  lemma RunCons(p: Page, e: Event, rest: seq<Event>, codec: HistoryCodec)
    ensures Run(p, [e] + rest, codec) == Run(Step(p, e, codec), rest, codec)
  {
    assert ([e] + rest)[0] == e && ([e] + rest)[1..] == rest;
  }

  /** The question of the conversation below, submitted on a fresh page. */
  lemma HelloAsked(codec: HistoryCodec, ids: IdSource, t0: nat)
    ensures var p := Step(Step(Mount(map[], codec, ids), Type("Hello"), codec), Submit(t0, Opened), codec);
      p.messages == [Message(User, "Hello", NowId(t0))] && p.live == Some(Session(0, ""))
  {
    var p0 := Mount(map[], codec, ids);
    var p1 := Step(p0, Type("Hello"), codec);
    assert Inv(p1, codec) && p1.question == "Hello" && p1.messages == [] && p1.nextHandle == 0 by {
      MountInv(map[], codec, ids);
      StepInv(p0, Type("Hello"), codec);
    }
    assert !IsJsSpace("Hello"[0]);
    SubmitOpens(p1, t0, codec);
    assert Trim("Hello") == "Hello" by {
      assert StripLeft("Hello", IsJsSpace) == "Hello";
      assert StripRight("Hello", IsJsSpace) == "Hello";
    }
  }

  /** The answer of the conversation below, streamed into a session that has received nothing. */
  lemma HelloAnswered(p: Page, codec: HistoryCodec, t1: nat)
    requires p.live == Some(Session(0, ""))
    ensures var r := Step(Step(Step(Step(p, Chunk(0, "Hi"), codec), Chunk(0, " there"), codec), Chunk(0, "!"), codec),
                          Close(0, t1), codec);
      r.messages == p.messages + [Message(Assistant, "Hi there!", NowId(t1))] && !r.loading && r.preview == ""
  {
    var p3 := Step(p, Chunk(0, "Hi"), codec);
    assert p3.live == Some(Session(0, "Hi")) && p3.messages == p.messages by {
      ChunkExtends(p, "Hi", codec);
      assert "" + "Hi" == "Hi";
    }
    var p4 := Step(p3, Chunk(0, " there"), codec);
    assert p4.live == Some(Session(0, "Hi there")) && p4.messages == p.messages by {
      ChunkExtends(p3, " there", codec);
      assert "Hi" + " there" == "Hi there";
    }
    var p5 := Step(p4, Chunk(0, "!"), codec);
    assert p5.live == Some(Session(0, "Hi there!")) && p5.messages == p.messages by {
      ChunkExtends(p4, "!", codec);
      assert "Hi there" + "!" == "Hi there!";
    }
    assert !IsJsSpace("Hi there!"[0]);
    CloseCommits(p5, t1, codec);
  }

  /**
   * Asking "Hello" on a fresh page and receiving "Hi", " there" and "!"
   * before the stream closes gives exactly two messages: the question, then
   * the answer "Hi there!".
   */
  lemma HelloConversation(codec: HistoryCodec, ids: IdSource, t0: nat, t1: nat)
    ensures var p := Run(Mount(map[], codec, ids),
                         [Type("Hello"), Submit(t0, Opened), Chunk(0, "Hi"), Chunk(0, " there"), Chunk(0, "!"), Close(0, t1)],
                         codec);
      && p.messages == [Message(User, "Hello", NowId(t0)), Message(Assistant, "Hi there!", NowId(t1))]
      && !p.loading && p.preview == ""
  {
    var p := Mount(map[], codec, ids);
    var e0, e1, e2, e3, e4, e5 := Type("Hello"), Submit(t0, Opened), Chunk(0, "Hi"), Chunk(0, " there"), Chunk(0, "!"), Close(0, t1);
    RunCons(p, e0, [e1, e2, e3, e4, e5], codec);
    p := Step(p, e0, codec);
    RunCons(p, e1, [e2, e3, e4, e5], codec);
    p := Step(p, e1, codec);
    RunCons(p, e2, [e3, e4, e5], codec);
    p := Step(p, e2, codec);
    RunCons(p, e3, [e4, e5], codec);
    p := Step(p, e3, codec);
    RunCons(p, e4, [e5], codec);
    p := Step(p, e4, codec);
    RunCons(p, e5, [], codec);
    HelloAsked(codec, ids, t0);
    HelloAnswered(Step(Step(Mount(map[], codec, ids), e0, codec), e1, codec), codec, t1);
  }
}

=== FILE: event_stream.dfy ===
/**
 * The receiving side of a `text/event-stream` response, as the browser's
 * `EventSource` interprets it: the event stream interpretation rules of
 * section 9.2.6 of the WHATWG HTML Living Standard ("Server-sent events").
 * The parser is a left fold over the characters of the (decoded) stream, so
 * it does not matter how the stream is cut into network packets.
 *
 * The `retry` field only changes the reconnection delay, and reconnection is
 * outside this model, so it is ignored like any unknown field.
 */
module EventStream {
  import opened Text

  /** A dispatched event: its type, its data and the last event id in force. */
  datatype Event = Event(eventType: string, data: string, lastEventId: string)

  /**
   * The parser: the current incomplete line, whether the previous character
   * was a carriage return (so that a following line feed belongs to the same
   * line terminator), the data, event type and last event id buffers, and
   * the events dispatched so far.
   */
  datatype Parser = Parser(line: string, afterCR: bool, data: string, eventType: string,
                           lastEventId: string, events: seq<Event>)

  const Initial := Parser([], false, [], [], [], [])

  const ByteOrderMark: char := '\U{FEFF}'

  /** Text with no line terminator in it: it can only be part of one line. */
  predicate OneLine(s: string) {
    '\n' !in s && '\r' !in s
  }

  /** Between events: no incomplete line, no pending terminator, empty buffers. */
  predicate Clean(p: Parser) {
    p.line == [] && !p.afterCR && p.data == [] && p.eventType == []
  }

  /** Index of the first colon of a line that has one. */
  function FirstColon(line: string): (i: nat)
    requires ':' in line
    ensures i < |line| && line[i] == ':'
    ensures forall k | 0 <= k < i :: line[k] != ':'
  {
    if line[0] == ':' then 0 else 1 + FirstColon(line[1..])
  }

  /**
   * Dispatching: an empty data buffer dispatches nothing; otherwise one
   * trailing line feed is removed from the data, the type defaults to
   * `message`, and the event carries the last event id. Both the data and
   * the type buffer are reset; the last event id buffer is not.
   */
  function Dispatch(p: Parser): Parser {
    if p.data == [] then
      p.(eventType := [])
    else
      var data := if p.data[|p.data| - 1] == '\n' then p.data[..|p.data| - 1] else p.data;
      var eventType := if p.eventType == [] then "message" else p.eventType;
      p.(events := p.events + [Event(eventType, data, p.lastEventId)], data := [], eventType := [])
  }

  /**
   * One field: `event` sets the type, `data` appends the value and a line
   * feed, `id` sets the last event id unless the value contains NUL; every
   * other field name is ignored.
   */
  function ProcessField(p: Parser, name: string, value: string): Parser {
    if name == "event" then p.(eventType := value)
    else if name == "data" then p.(data := p.data + value + "\n")
    else if name == "id" then (if '\0' in value then p else p.(lastEventId := value))
    else p
  }

  /**
   * One complete line: a blank line dispatches, a line starting with a
   * colon is a comment, otherwise the field name runs up to the first colon
   * and the value follows it without one leading space; a line with no
   * colon is a field name with the empty value.
   */
  function ProcessLine(p: Parser, line: string): Parser {
    if line == [] then Dispatch(p)
    else if line[0] == ':' then p
    else if ':' in line then
      var i := FirstColon(line);
      var value := line[i + 1..];
      ProcessField(p, line[..i], if value != [] && value[0] == ' ' then value[1..] else value)
    else
      ProcessField(p, line, [])
  }

  /** One character: CRLF, a lone LF and a lone CR each end a line. */
  function Feed(p: Parser, c: char): (r: Parser)
    ensures p.events <= r.events
  {
    if c == '\n' && p.afterCR then p.(afterCR := false)
    else if c == '\n' || c == '\r' then ProcessLine(p.(line := []), p.line).(afterCR := c == '\r')
    else p.(line := p.line + [c], afterCR := false)
  }

  function Run(p: Parser, s: string): Parser
    decreases |s|
  {
    if s == [] then p else Run(Feed(p, s[0]), s[1..])
  }

  /**
   * The events of a whole stream; a leading byte order mark is skipped, and
   * an event whose blank line never arrives is never dispatched.
   */
  function Parse(stream: string): seq<Event> {
    var s := if stream != [] && stream[0] == ByteOrderMark then stream[1..] else stream;
    Run(Initial, s).events
  }

  /** Events are only ever added, at the end. */
  lemma {:induction false} RunExtendsEvents(p: Parser, s: string)
    ensures p.events <= Run(p, s).events
    decreases |s|
  {
    if s != [] {
      RunExtendsEvents(Feed(p, s[0]), s[1..]);
    }
  }

  /** Parsing is incremental: the stream may be cut anywhere. */
  lemma {:induction false} RunAppend(p: Parser, a: string, b: string)
    ensures Run(p, a + b) == Run(Run(p, a), b)
    decreases |a|
  {
    if a == [] {
      assert a + b == b;
    } else {
      assert (a + b)[0] == a[0];
      assert (a + b)[1..] == a[1..] + b;
      RunAppend(Feed(p, a[0]), a[1..], b);
    }
  }

  /** Text without a line terminator only extends the current line. */
  lemma {:induction false} RunOneLine(p: Parser, s: string)
    requires s != [] && OneLine(s)
    ensures Run(p, s) == p.(line := p.line + s, afterCR := false)
    decreases |s|
  {
    var q := Feed(p, s[0]);
    assert q == p.(line := p.line + [s[0]], afterCR := false);
    if |s| > 1 {
      assert OneLine(s[1..]) by {
        assert forall c | c in s[1..] :: c in s;
      }
      RunOneLine(q, s[1..]);
      assert p.line + [s[0]] + s[1..] == p.line + s;
    } else {
      assert p.line + [s[0]] == p.line + s;
    }
  }

  /** A line feed after a complete line, with no pending carriage return, processes that line. */
  lemma RunLineFeed(p: Parser, line: string)
    requires p.line == [] && !p.afterCR && OneLine(line)
    ensures Run(p, line + "\n") == ProcessLine(p, line).(afterCR := false)
  {
    RunAppend(p, line, "\n");
    var q := if line == [] then p else p.(line := line, afterCR := false);
    if line != [] {
      RunOneLine(p, line);
      assert p.line + line == line;
    } else {
      assert line + "\n" == "\n";
    }
    assert Run(p, line) == q;
    assert Run(q, "\n") == Feed(q, '\n');
  }

  /** The field name and value of `data: <v>`: a `data` field with value `v`. */
  lemma DataFieldLine(v: string)
    ensures ':' in "data: " + v && FirstColon("data: " + v) == 4
    ensures ("data: " + v)[..4] == "data" && ("data: " + v)[5..] == " " + v
  {
    var line := "data: " + v;
    assert line[4] == ':';
    assert line[1..][1..][1..][1..] == ": " + v;
    assert FirstColon(line[1..][1..][1..][1..]) == 0;
  }

  /** `data: <v>` and a line feed append `v` and a line feed to the data buffer. */
  lemma RunDataLine(p: Parser, v: string)
    requires p.line == [] && !p.afterCR && OneLine(v)
    ensures Run(p, "data: " + v + "\n") == p.(data := p.data + v + "\n")
  {
    var line := "data: " + v;
    assert OneLine(line) by {
      assert forall c | c in line :: c in "data: " || c in v;
    }
    RunLineFeed(p, line);
    DataFieldLine(v);
    assert (" " + v)[1..] == v;
  }

  /** The field name and value of `event: <t>`: an `event` field with value `t`. */
  lemma EventFieldLine(t: string)
    ensures ':' in "event: " + t && FirstColon("event: " + t) == 5
    ensures ("event: " + t)[..5] == "event" && ("event: " + t)[6..] == " " + t
  {
    var line := "event: " + t;
    assert line[5] == ':';
    assert line[1..][1..][1..][1..][1..] == ": " + t;
    assert FirstColon(line[1..][1..][1..][1..][1..]) == 0;
  }

  /** `event: <t>` and a line feed set the event type buffer to `t`. */
  lemma RunEventLine(p: Parser, t: string)
    requires p.line == [] && !p.afterCR && OneLine(t)
    ensures Run(p, "event: " + t + "\n") == p.(eventType := t)
  {
    var line := "event: " + t;
    assert OneLine(line) by {
      assert forall c | c in line :: c in "event: " || c in t;
    }
    RunLineFeed(p, line);
    EventFieldLine(t);
    assert (" " + t)[1..] == t;
  }

  /** A blank line dispatches. */
  lemma RunBlankLine(p: Parser)
    requires p.line == [] && !p.afterCR
    ensures Run(p, "\n") == Dispatch(p).(afterCR := false)
  {
    RunLineFeed(p, []);
    assert [] + "\n" == "\n";
  }

  /**
   * Between events, one `data:` line followed by a blank line dispatches
   * exactly one `message` event whose data is the line's value with one
   * leading space removed, and leaves the parser between events.
   */
  lemma DataEvent(p: Parser, v: string)
    requires Clean(p) && OneLine(v)
    ensures Run(p, "data: " + v + "\n" + "\n")
         == p.(events := p.events + [Event("message", v, p.lastEventId)])
    ensures Clean(Run(p, "data: " + v + "\n" + "\n"))
  {
    RunAppend(p, "data: " + v + "\n", "\n");
    RunDataLine(p, v);
    assert p.data + v + "\n" == v + "\n";
    var q := p.(data := v + "\n");
    RunBlankLine(q);
    assert q.data[..|q.data| - 1] == v;
    assert Dispatch(q) == p.(events := p.events + [Event("message", v, p.lastEventId)]);
  }

  /**
   * Between events, a line that names no known field and has no colon is
   * ignored.
   */
  lemma IgnoredLine(p: Parser, line: string)
    requires p.line == [] && !p.afterCR && OneLine(line)
    requires line != [] && ':' !in line && line != "event" && line != "data" && line != "id"
    ensures Run(p, line + "\n") == p
  {
    RunLineFeed(p, line);
  }
}

=== FILE: llm_client.dfy ===
/**
 * The backend's client of the chat-completions service
 * (backend/app/services/llm_client.py): normalisation of the API key read
 * from the environment, and the line-oriented parser that turns the service's
 * streamed response, as a sequence of network text chunks, into the sequence
 * of content deltas it yields.
 *
 * `json.loads` is foreign: it is a parameter `decode` of type `Decoder`,
 * answering `None` where Python raises `JSONDecodeError`.
 */
module LlmClient {
  import opened Wrappers
  import opened Text

  // ---------------------------------------------------------------------------
  // API key normalisation
  // ---------------------------------------------------------------------------

  /** Python's `str.isspace` for one character: the characters `str.strip()` removes. */
  predicate IsPySpace(c: char) {
    var n := c as int;
    || 0x09 <= n <= 0x0D
    || 0x1C <= n <= 0x20
    || n == 0x85 || n == 0xA0 || n == 0x1680
    || 0x2000 <= n <= 0x200A
    || n == 0x2028 || n == 0x2029 || n == 0x202F || n == 0x205F || n == 0x3000
  }

  predicate IsQuote(c: char) {
    c == '"'
  }

  predicate IsSpaceOrQuote(c: char) {
    IsPySpace(c) || IsQuote(c)
  }

  const ApiKeyVariable := "OPENAI_API_KEY"

  /** The environment value of the key, or `""` when the variable is unset. */
  function RawApiKey(env: map<string, string>): string {
    if ApiKeyVariable in env then env[ApiKeyVariable] else ""
  }

  /** `raw_key.strip().strip('"')`: surrounding whitespace, then surrounding double quotes. */
  function ApiKey(env: map<string, string>): string {
    Strip(Strip(RawApiKey(env), IsPySpace), IsQuote)
  }

  lemma SpaceOrQuoteCut(s: string, r: string, drop: char -> bool, i: nat, j: nat)
    requires drop == IsPySpace || drop == IsQuote
    requires CutAt(s, r, drop, i, j)
    ensures CutAt(s, r, IsSpaceOrQuote, i, j)
  {
    assert forall k | 0 <= k < i :: s[..i][k] == s[k];
    assert forall k | j <= k < |s| :: s[j..][k - j] == s[k];
  }

  /**
   * The key is the raw value stripped of its surrounding whitespace, then
   * of its leading and trailing double quotes: a contiguous slice of the
   * raw value with no double quote at either end, and everything cut off
   * on either side is whitespace or double quotes.
   */
  lemma ApiKeyIsSlice(env: map<string, string>)
    ensures var key := ApiKey(env);
      && (exists t :: IsStripOf(RawApiKey(env), t, IsPySpace) && IsStripOf(t, key, IsQuote))
      && (key == [] || (!IsQuote(key[0]) && !IsQuote(key[|key| - 1])))
      && exists i: nat, j: nat :: CutAt(RawApiKey(env), key, IsSpaceOrQuote, i, j)
  {
    var raw := RawApiKey(env);
    var trimmed := Strip(raw, IsPySpace);
    var key := Strip(trimmed, IsQuote);
    StripIsStripOf(raw, IsPySpace);
    StripIsStripOf(trimmed, IsQuote);
    var i1: nat, j1: nat :| StripAt(raw, trimmed, IsPySpace, i1, j1);
    var i2: nat, j2: nat :| StripAt(trimmed, key, IsQuote, i2, j2);
    SpaceOrQuoteCut(raw, trimmed, IsPySpace, i1, j1);
    SpaceOrQuoteCut(trimmed, key, IsQuote, i2, j2);
    CutCompose(raw, trimmed, key, IsSpaceOrQuote, i1, j1, i2, j2);
  }

  /** Whitespace inside the quotes survives: the quotes are stripped after the whitespace. */
  lemma ApiKeyKeepsSpaceInsideQuotes()
    ensures ApiKey(map[ApiKeyVariable := " \" sk \" "]) == " sk "
  {
    var raw := " \" sk \" ";
    assert RawApiKey(map[ApiKeyVariable := raw]) == raw;
    assert StripLeft(raw, IsPySpace) == raw[1..];
    assert StripRight(raw[1..], IsPySpace) == "\" sk \"";
    assert StripLeft("\" sk \"", IsQuote) == " sk \"";
    assert StripRight(" sk \"", IsQuote) == " sk ";
  }

  // ---------------------------------------------------------------------------
  // Decoded payloads
  // ---------------------------------------------------------------------------

  /** A JSON value as `json.loads` returns it. Numbers carry no payload: none is ever read. */
  datatype Json =
    | JNull
    | JBool(b: bool)
    | JNumber
    | JString(s: string)
    | JArray(items: seq<Json>)
    | JObject(fields: map<string, Json>)

  /** `json.loads`: `None` where it raises `JSONDecodeError`. */
  type Decoder = string -> Option<Json>

  /**
   * `data['choices'][0].get('delta', {})['content']`, when every step of that
   * lookup succeeds and the content is a string. Any other shape raises a
   * `TypeError`, `KeyError` or `AttributeError` that the handler swallows
   * (a non-string content fails at `buffer += content`, before the `yield`),
   * so it yields nothing.
   */
  function DeltaContent(v: Json): (r: Option<string>)
    ensures r.Some? ==>
      && v.JObject? && "choices" in v.fields
      && v.fields["choices"].JArray? && |v.fields["choices"].items| > 0
      && v.fields["choices"].items[0].JObject?
      && "delta" in v.fields["choices"].items[0].fields
      && v.fields["choices"].items[0].fields["delta"].JObject?
      && "content" in v.fields["choices"].items[0].fields["delta"].fields
      && v.fields["choices"].items[0].fields["delta"].fields["content"] == JString(r.value)
  {
    if !(v.JObject? && "choices" in v.fields) then None
    else
      var choices := v.fields["choices"];
      if !(choices.JArray? && |choices.items| > 0 && choices.items[0].JObject?) then None
      else
        var first := choices.items[0].fields;
        var delta := if "delta" in first then first["delta"] else JObject(map[]);
        if !(delta.JObject? && "content" in delta.fields && delta.fields["content"].JString?) then None
        else Some(delta.fields["content"].s)
  }

  /** The payload of one streamed completion chunk carrying `content`, with any other fields. */
  function CompletionChunk(top: map<string, Json>, choice: map<string, Json>, delta: map<string, Json>,
                           others: seq<Json>, content: string): Json
  {
    JObject(top["choices" := JArray([JObject(choice["delta" := JObject(delta["content" := JString(content)])])] + others)])
  }

  /** Any completion chunk yields exactly its content, untrimmed and possibly empty. */
  lemma CompletionChunkYieldsContent(top: map<string, Json>, choice: map<string, Json>, delta: map<string, Json>,
                                     others: seq<Json>, content: string)
    ensures DeltaContent(CompletionChunk(top, choice, delta, others, content)) == Some(content)
  {
  }

  // ---------------------------------------------------------------------------
  // Lines of a network chunk
  // ---------------------------------------------------------------------------

  /** `[line for line in chunk.split('\n') if line]`. */
  function Lines(chunk: string): seq<string> {
    NonEmpty(Split(chunk, '\n'))
  }

  /** Every line is non-empty and holds no line feed. */
  lemma LinesShape(chunk: string)
    ensures forall k | 0 <= k < |Lines(chunk)| :: Lines(chunk)[k] != "" && '\n' !in Lines(chunk)[k]
  {
    NonEmptyShape(Split(chunk, '\n'));
    SplitPiecesFree(chunk, '\n');
  }

  /** A chunk with no line feed is one line, or none when it is empty. */
  lemma LinesOfOneLine(chunk: string)
    requires '\n' !in chunk
    ensures Lines(chunk) == (if chunk == "" then [] else [chunk])
  {
    SplitNoSeparator(chunk, '\n');
    assert NonEmpty([chunk]) == NonEmpty([]) + (if chunk == "" then [] else [chunk]);
  }

  /** A line feed separates the lines before it from the lines after it, in order. */
  lemma LinesAtLineFeed(a: string, b: string)
    ensures Lines(a + "\n" + b) == Lines(a) + Lines(b)
  {
    SplitAtSeparator(a, b, '\n');
    NonEmptyAppend(Split(a, '\n'), Split(b, '\n'));
  }

  // ---------------------------------------------------------------------------
  // Deltas of lines, chunks and streams
  // ---------------------------------------------------------------------------

  const DataPrefix := "data: "
  const DoneLine := "data: [DONE]"

  /** What one line other than the end marker yields. */
  function LineDelta(line: string, decode: Decoder): Option<string> {
    if DataPrefix <= line && line != DoneLine then
      var payload := line[|DataPrefix|..];
      if Strip(payload, IsPySpace) == "" then None
      else
        match decode(payload)
        case None => None
        case Some(v) => DeltaContent(v)
    else
      None
  }

  /** The deltas of the lines of one network chunk, up to the first end marker. */
  function LinesDeltas(lines: seq<string>, decode: Decoder): seq<string> {
    if lines == [] then []
    else if lines[0] == DoneLine then []
    else ToSeq(LineDelta(lines[0], decode)) + LinesDeltas(lines[1..], decode)
  }

  function ChunkDeltas(chunk: string, decode: Decoder): seq<string> {
    LinesDeltas(Lines(chunk), decode)
  }

  /** `ChunkDeltas` for a fixed decoder, as a function of the chunk alone. */
  function ChunkParser(decode: Decoder): string -> seq<string> {
    chunk => ChunkDeltas(chunk, decode)
  }

  /**
   * Everything `get_stream_answer` yields for the given network chunks: the
   * deltas of every chunk, each chunk parsed on its own.
   */
  function StreamDeltas(chunks: seq<string>, decode: Decoder): seq<string> {
    Concat(Map(ChunkParser(decode), chunks))
  }

  /** Lines before any end marker contribute their deltas in order. */
  lemma {:induction false} LinesDeltasAppend(a: seq<string>, b: seq<string>, decode: Decoder)
    requires DoneLine !in a
    ensures LinesDeltas(a + b, decode) == LinesDeltas(a, decode) + LinesDeltas(b, decode)
    decreases |a|
  {
    if a != [] {
      assert (a + b)[0] == a[0];
      assert (a + b)[1..] == a[1..] + b;
      LinesDeltasAppend(a[1..], b, decode);
    } else {
      assert a + b == b;
    }
  }

  /** A line after lines without end marker adds what that line yields. */
  lemma LinesDeltasSnoc(lines: seq<string>, line: string, decode: Decoder)
    requires DoneLine !in lines && line != DoneLine
    ensures LinesDeltas(lines + [line], decode) == LinesDeltas(lines, decode) + ToSeq(LineDelta(line, decode))
  {
    LinesDeltasAppend(lines, [line], decode);
    assert [line][1..] == [];
  }

  /** One more line that is not the end marker adds its own delta, if any. */
  lemma LinesDeltasStep(lines: seq<string>, k: nat, decode: Decoder)
    requires k < |lines| && lines[k] != DoneLine && DoneLine !in lines[..k]
    ensures DoneLine !in lines[..k + 1]
    ensures LinesDeltas(lines[..k + 1], decode) == LinesDeltas(lines[..k], decode) + ToSeq(LineDelta(lines[k], decode))
  {
    assert lines[..k + 1] == lines[..k] + [lines[k]];
    LinesDeltasSnoc(lines[..k], lines[k], decode);
  }

  /** The first end marker, at index `k`, cuts the lines there. */
  lemma {:induction false} DoneCutsAt(lines: seq<string>, k: nat, decode: Decoder)
    requires k < |lines| && lines[k] == DoneLine && DoneLine !in lines[..k]
    ensures LinesDeltas(lines, decode) == LinesDeltas(lines[..k], decode)
    decreases k
  {
    if k > 0 {
      assert lines[..k][0] == lines[0];
      assert lines[1..][..k - 1] == lines[..k][1..];
      DoneCutsAt(lines[1..], k - 1, decode);
    }
  }

  /**
   * `data: [DONE]` yields nothing and cuts off the rest of its own network
   * chunk.
   */
  lemma DoneEndsChunk(before: seq<string>, after: seq<string>, decode: Decoder)
    requires DoneLine !in before
    ensures LinesDeltas(before + [DoneLine] + after, decode) == LinesDeltas(before, decode)
  {
    LinesDeltasAppend(before, [DoneLine] + after, decode);
    assert before + [DoneLine] + after == before + ([DoneLine] + after);
  }

  /**
   * A line yields content exactly when it starts with `data: `, is not the
   * end marker, its payload is not whitespace only, the payload decodes, and
   * the decoded value has string content at `choices[0].delta.content`; the
   * content is then what it yields. Every other line — in particular one
   * whose payload is blank or fails to decode — yields nothing.
   */
  lemma LineDeltaSpec(line: string, decode: Decoder, content: string)
    ensures LineDelta(line, decode) == Some(content) <==>
      && DataPrefix <= line && line != DoneLine
      && !All(line[|DataPrefix|..], IsPySpace)
      && decode(line[|DataPrefix|..]).Some?
      && DeltaContent(decode(line[|DataPrefix|..]).value) == Some(content)
  {
    if DataPrefix <= line {
      StripEmptyIffAll(line[|DataPrefix|..], IsPySpace);
    }
  }

  /**
   * A line that is not an end marker and yields nothing leaves no trace: the
   * lines around it yield what they would yield without it.
   */
  lemma SkippedLineInvisible(before: seq<string>, line: string, after: seq<string>, decode: Decoder)
    requires DoneLine !in before && line != DoneLine
    requires LineDelta(line, decode) == None
    ensures LinesDeltas(before + [line] + after, decode) == LinesDeltas(before + after, decode)
  {
    var rest := [line] + after;
    assert rest[0] == line && rest[1..] == after;
    assert LinesDeltas(rest, decode) == LinesDeltas(after, decode);
    LinesDeltasAppend(before, rest, decode);
    LinesDeltasAppend(before, after, decode);
    assert before + [line] + after == before + rest;
  }

  /**
   * A `data: ` line whose payload decodes to an object with a non-empty
   * `choices` list whose first `delta` has string content yields exactly
   * that content.
   */
  lemma ContentLineYields(payload: string, decode: Decoder, content: string)
    requires DataPrefix + payload != DoneLine
    requires !All(payload, IsPySpace)
    requires decode(payload).Some? && DeltaContent(decode(payload).value) == Some(content)
    ensures LinesDeltas([DataPrefix + payload], decode) == [content]
  {
    var line := DataPrefix + payload;
    assert line[|DataPrefix|..] == payload;
    StripEmptyIffAll(payload, IsPySpace);
  }

  /**
   * No state crosses a network-chunk boundary: the deltas of a sequence of
   * chunks are the deltas of each chunk, in order. In particular a line
   * split across two chunks is parsed as two lines, and an end marker in
   * one chunk does not silence the next.
   */
  lemma StreamDeltasAppend(c1: seq<string>, c2: seq<string>, decode: Decoder)
    ensures StreamDeltas(c1 + c2, decode) == StreamDeltas(c1, decode) + StreamDeltas(c2, decode)
  {
    var f := ChunkParser(decode);
    MapAppend(f, c1, c2);
    ConcatAppend(Map(f, c1), Map(f, c2));
  }

  /** One more network chunk contributes its own deltas after those of the earlier chunks. */
  lemma StreamDeltasSnoc(chunks: seq<string>, chunk: string, decode: Decoder)
    ensures StreamDeltas(chunks + [chunk], decode) == StreamDeltas(chunks, decode) + ChunkDeltas(chunk, decode)
  {
    var f := ChunkParser(decode);
    MapAppend(f, chunks, [chunk]);
    var d := f(chunk);
    assert Map(f, [chunk]) == [d];
    ConcatSnoc(Map(f, chunks), d);
  }

  // ---------------------------------------------------------------------------
  // The generator
  // ---------------------------------------------------------------------------

  /** One line of a chunk: its content, if any, is added to the buffer and yielded. */
  method ConsumeLine(line: string, decode: Decoder, yielded0: seq<string>, buffer0: string)
    returns (yielded: seq<string>, buffer: string)
    requires buffer0 == Concat(yielded0)
    ensures yielded == yielded0 + ToSeq(LineDelta(line, decode))
    ensures buffer == Concat(yielded)
  {
    yielded, buffer := yielded0, buffer0;
    var delta := LineDelta(line, decode);
    if delta.Some? {
      ConcatSnoc(yielded, delta.value);
      buffer := buffer + delta.value;
      yielded := yielded + [delta.value];
    }
  }

  /**
   * The inner loop of `get_stream_answer` over the lines of one network
   * chunk: it extends the deltas yielded so far by those of the lines, up to
   * an end marker, and keeps `buffer` the concatenation of everything yielded.
   */
  method ConsumeLines(lines: seq<string>, decode: Decoder, yielded0: seq<string>, buffer0: string)
    returns (yielded: seq<string>, buffer: string)
    requires buffer0 == Concat(yielded0)
    ensures yielded == yielded0 + LinesDeltas(lines, decode)
    ensures buffer == Concat(yielded)
  {
    yielded, buffer := yielded0, buffer0;
    var k := 0;
    // The end marker yields nothing before the loop breaks, so stopping just before it is the same.
    while k < |lines| && lines[k] != DoneLine
      invariant 0 <= k <= |lines|
      invariant DoneLine !in lines[..k]
      invariant yielded == yielded0 + LinesDeltas(lines[..k], decode)
      invariant buffer == Concat(yielded)
    {
      LinesDeltasStep(lines, k, decode);
      ghost var before := yielded;
      yielded, buffer := ConsumeLine(lines[k], decode, yielded, buffer);
      assert yielded == yielded0 + LinesDeltas(lines[..k + 1], decode) by {
        assert yielded == before + ToSeq(LineDelta(lines[k], decode));
      }
      k := k + 1;
    }
    if k < |lines| {
      DoneCutsAt(lines, k, decode);
    } else {
      assert lines[..k] == lines;
    }
  }

  /**
   * `get_stream_answer` over the chunks of an already-opened response: the
   * contents it yields, in order, and its `buffer`, which is always the
   * concatenation of everything yielded so far.
   */
  method GetStreamAnswer(chunks: seq<string>, decode: Decoder) returns (yielded: seq<string>, buffer: string)
    ensures yielded == StreamDeltas(chunks, decode)
    ensures buffer == Concat(yielded)
  {
    yielded, buffer := [], "";
    var i := 0;
    assert chunks[..0] == [];
    while i < |chunks|
      invariant 0 <= i <= |chunks|
      invariant yielded == StreamDeltas(chunks[..i], decode)
      invariant buffer == Concat(yielded)
    {
      yielded, buffer := ConsumeLines(Lines(chunks[i]), decode, yielded, buffer);
      assert chunks[..i + 1] == chunks[..i] + [chunks[i]];
      StreamDeltasSnoc(chunks[..i], chunks[i], decode);
      i := i + 1;
    }
    assert chunks[..|chunks|] == chunks;
  }
}

=== FILE: pipeline.dfy ===
/**
 * The three parts end to end: the deltas the completion stream yields
 * (backend/app/services/llm_client.py) are framed as server-sent events by
 * the query route (backend/app/routes/query.py), the browser's `EventSource`
 * parses the body, and the chat page (frontend/pages/index.tsx) receives
 * the events' data and commits the text when the session closes.
 *
 * The page listens through two handlers. `onmessage` receives the events of
 * type `message`; `onerror` runs for an event of type `error` as well as
 * when the connection ends, and closes the session either way. The route
 * never writes an `event:` line of its own, but the framing as written lets
 * a delta supply one (`QueryRoute.FrameRetypesEvent`), so both handlers
 * matter.
 *
 * `SafeAnswerArrives` is the end-to-end property for any deltas;
 * `StreamedAnswerArrives` is kept as the bridge that feeds it the
 * extractor's output.
 */
module Pipeline {
  import opened Wrappers
  import opened Text
  import LlmClient
  import EventStream
  import QueryRoute
  import ChatPage

  /**
   * The events before the first one of type `error`: the source is closed
   * by `onerror` at that event and delivers nothing after it.
   */
  function BeforeError(events: seq<EventStream.Event>): (r: seq<EventStream.Event>)
    ensures r <= events
    ensures forall k | 0 <= k < |r| :: r[k].eventType != "error"
    ensures |r| < |events| ==> events[|r|].eventType == "error"
    decreases |events|
  {
    if events == [] || events[0].eventType == "error" then []
    else [events[0]] + BeforeError(events[1..])
  }

  /**
   * The data the page's `onmessage` handler receives: that of the events of
   * type `message`, in order. Events of other types have no listener, apart
   * from `error`, which `BeforeError` accounts for.
   */
  function EventData(events: seq<EventStream.Event>): (data: seq<string>)
    ensures |data| <= |events|
    ensures (forall k | 0 <= k < |events| :: events[k].eventType == "message") ==> |data| == |events|
    decreases |events|
  {
    if events == [] then []
    else
      var last := events[|events| - 1];
      EventData(events[..|events| - 1]) + (if last.eventType == "message" then [last.data] else [])
  }

  /**
   * What the page's live session `handle` receives from a response body
   * before it is closed: the data of the `message` events up to the first
   * `error` event. The `Close` that follows it in a trace is the `onerror`
   * call for that event, or for the end of the connection when there is none.
   */
  function Received(handle: nat, body: string): seq<ChatPage.Event> {
    ChatPage.Chunks(handle, EventData(BeforeError(EventStream.Parse(body))))
  }

  /** The answer a page commits when a session whose text is `text` closes. */
  function Committed(text: string, now: nat): ChatPage.Message {
    ChatPage.Message(ChatPage.Assistant,
                     if All(text, ChatPage.IsJsSpace) then ChatPage.SorryText else text,
                     ChatPage.NowId(now))
  }

  /** With no `error` event, the page sees every event. */
  lemma NoErrorKeepsAll(events: seq<EventStream.Event>)
    requires forall k | 0 <= k < |events| :: events[k].eventType != "error"
    ensures BeforeError(events) == events
  {
  }

  /** The first `error` event cuts off itself and everything after it. */
  lemma {:induction false} ErrorCutsOff(events: seq<EventStream.Event>, e: EventStream.Event,
                                         rest: seq<EventStream.Event>)
    requires forall k | 0 <= k < |events| :: events[k].eventType != "error"
    requires e.eventType == "error"
    ensures BeforeError(events + [e] + rest) == events
    decreases |events|
  {
    var all := events + [e] + rest;
    if events == [] {
      assert all[0] == e;
    } else {
      assert all[0] == events[0];
      assert all[1..] == events[1..] + [e] + rest;
      ErrorCutsOff(events[1..], e, rest);
      assert [events[0]] + events[1..] == events;
    }
  }

  /** The events the route's messages make are all of type `message`. */
  lemma {:induction false} MessagesTyped(data: seq<string>, id: string)
    ensures forall k | 0 <= k < |QueryRoute.Messages(data, id)| :: QueryRoute.Messages(data, id)[k].eventType == "message"
    decreases |data|
  {
    if data != [] {
      var init := data[..|data| - 1];
      MessagesTyped(init, id);
      assert QueryRoute.Messages(data, id)
          == QueryRoute.Messages(init, id) + [EventStream.Event("message", data[|data| - 1], id)];
    }
  }

  /** No message closes the page early. */
  lemma MessagesKept(data: seq<string>, id: string)
    ensures BeforeError(QueryRoute.Messages(data, id)) == QueryRoute.Messages(data, id)
  {
    MessagesTyped(data, id);
    NoErrorKeepsAll(QueryRoute.Messages(data, id));
  }

  /** The page receives exactly the data of the messages, in order. */
  lemma {:induction false} ReceivedMessages(data: seq<string>, id: string)
    ensures EventData(QueryRoute.Messages(data, id)) == data
    decreases |data|
  {
    if data != [] {
      var init := data[..|data| - 1];
      ReceivedMessages(init, id);
      var events := QueryRoute.Messages(data, id);
      assert events[..|events| - 1] == QueryRoute.Messages(init, id);
      assert data == init + [data[|data| - 1]];
    }
  }

  /**
   * A session that has received nothing, fed the body of a stream and then
   * closed, commits exactly one message: the text of the `message` events
   * before the first `error` event, concatenated.
   */
  lemma ReceiveThenClose(p: ChatPage.Page, body: string, now: nat, codec: ChatPage.HistoryCodec)
    requires p.live.Some? && p.live.value.buffer == ""
    ensures var h := p.live.value.handle;
      var text := Concat(EventData(BeforeError(EventStream.Parse(body))));
      var r := ChatPage.Run(p, Received(h, body) + [ChatPage.Close(h, now)], codec);
      && r.messages == p.messages + [Committed(text, now)]
      && !r.loading && r.live.None?
  {
    var h := p.live.value.handle;
    var data := EventData(BeforeError(EventStream.Parse(body)));
    ChatPage.RunAppend(p, Received(h, body), [ChatPage.Close(h, now)], codec);
    ChatPage.ChunksAccumulate(p, data, codec);
    var q := ChatPage.Run(p, Received(h, body), codec);
    assert q.live == Some(ChatPage.Session(h, Concat(data))) by {
      assert "" + Concat(data) == Concat(data);
    }
    ChatPage.RunCons(q, ChatPage.Close(h, now), [], codec);
    assert [ChatPage.Close(h, now)] + [] == [ChatPage.Close(h, now)];
    ChatPage.CloseCommits(q, now, codec);
  }

  /**
   * With the corrected framing, a fresh session commits the concatenation of
   * all the deltas — including their line feeds — as long as no delta holds
   * a carriage return; when that concatenation is blank, it commits the
   * apology instead.
   */
  lemma SafeAnswerArrives(p: ChatPage.Page, deltas: seq<string>, now: nat, codec: ChatPage.HistoryCodec)
    requires p.live.Some? && p.live.value.buffer == "" && QueryRoute.Each(QueryRoute.NoCR, deltas)
    ensures var h := p.live.value.handle;
      var r := ChatPage.Run(p, Received(h, QueryRoute.SafeEventBody(deltas)) + [ChatPage.Close(h, now)], codec);
      r.messages == p.messages + [Committed(Concat(deltas), now)]
  {
    var body := QueryRoute.SafeEventBody(deltas);
    QueryRoute.SafeEventBodyRoundTrip(deltas);
    MessagesKept(NonEmpty(deltas), "");
    ReceivedMessages(NonEmpty(deltas), "");
    NonEmptyShape(deltas);
    ReceiveThenClose(p, body, now, codec);
  }

  /**
   * The bridge from the extractor to the page: with the corrected framing,
   * what the extractor yields for a completion stream is what the page
   * commits — its concatenation, or the apology when that is blank —
   * provided no delta holds a carriage return.
   */
  lemma StreamedAnswerArrives(p: ChatPage.Page, chunks: seq<string>, decode: LlmClient.Decoder, now: nat,
                              codec: ChatPage.HistoryCodec)
    requires p.live.Some? && p.live.value.buffer == ""
    requires QueryRoute.Each(QueryRoute.NoCR, LlmClient.StreamDeltas(chunks, decode))
    ensures var h := p.live.value.handle;
      var deltas := LlmClient.StreamDeltas(chunks, decode);
      var r := ChatPage.Run(p, Received(h, QueryRoute.SafeEventBody(deltas)) + [ChatPage.Close(h, now)], codec);
      r.messages == p.messages + [Committed(Concat(deltas), now)]
  {
    SafeAnswerArrives(p, LlmClient.StreamDeltas(chunks, decode), now, codec);
  }

  /**
   * What the framing as written does deliver: when no delta holds a line
   * break, the page commits the concatenation of the deltas, or the apology
   * when that is blank.
   */
  lemma AsWrittenAnswerArrives(p: ChatPage.Page, deltas: seq<string>, now: nat, codec: ChatPage.HistoryCodec)
    requires p.live.Some? && p.live.value.buffer == "" && QueryRoute.Each(EventStream.OneLine, deltas)
    ensures var h := p.live.value.handle;
      var r := ChatPage.Run(p, Received(h, QueryRoute.EventBody(deltas)) + [ChatPage.Close(h, now)], codec);
      r.messages == p.messages + [Committed(Concat(deltas), now)]
  {
    var body := QueryRoute.EventBody(deltas);
    QueryRoute.EventBodyRoundTrip(deltas);
    MessagesKept(NonEmpty(deltas), "");
    ReceivedMessages(NonEmpty(deltas), "");
    NonEmptyShape(deltas);
    ReceiveThenClose(p, body, now, codec);
  }

  /**
   * With the framing as written, a delta holding a line feed loses the text
   * after it: a delta made of a line `v` and a line `w` naming no known
   * field is committed as `v`. The answer `a`, line feed, `b` is committed
   * as `a`.
   */
  lemma AnswerTruncatedAsWritten(p: ChatPage.Page, v: string, w: string, now: nat, codec: ChatPage.HistoryCodec)
    requires p.live.Some? && p.live.value.buffer == ""
    requires EventStream.OneLine(v) && EventStream.OneLine(w)
    requires w != [] && ':' !in w && w != "event" && w != "data" && w != "id"
    ensures var h := p.live.value.handle;
      var r := ChatPage.Run(p, Received(h, QueryRoute.EventBody([v + "\n" + w])) + [ChatPage.Close(h, now)], codec);
      r.messages == p.messages + [Committed(v, now)]
  {
    var body := QueryRoute.EventBody([v + "\n" + w]);
    QueryRoute.EventBodyOfOne(v + "\n" + w);
    QueryRoute.FrameLosesTextAfterLineFeed(v, w);
    NoErrorKeepsAll([EventStream.Event("message", v, "")]);
    var data := EventData(BeforeError(EventStream.Parse(body)));
    assert data == [v];
    assert Concat(data) == v by {
      ConcatCons(v, []);
      assert [v] + [] == [v];
    }
    ReceiveThenClose(p, body, now, codec);
  }

  /**
   * With the framing as written, a delta whose second line is `event: <t>`
   * for a type other than `message` never delivers its data: the page has no
   * listener for such an event, or, when `t` is `error`, its `onerror`
   * closes the session at it. Either way the page commits the apology.
   */
  lemma RetypedAnswerUnseen(p: ChatPage.Page, v: string, t: string, now: nat, codec: ChatPage.HistoryCodec)
    requires p.live.Some? && p.live.value.buffer == ""
    requires EventStream.OneLine(v) && EventStream.OneLine(t) && t != [] && t != "message"
    ensures var h := p.live.value.handle;
      var body := QueryRoute.EventBody([v + "\n" + ("event: " + t)]);
      var r := ChatPage.Run(p, Received(h, body) + [ChatPage.Close(h, now)], codec);
      r.messages == p.messages + [ChatPage.Message(ChatPage.Assistant, ChatPage.SorryText, ChatPage.NowId(now))]
  {
    var delta := v + "\n" + ("event: " + t);
    var body := QueryRoute.EventBody([delta]);
    QueryRoute.EventBodyOfOne(delta);
    QueryRoute.FrameRetypesEvent(v, t);
    assert EventData(BeforeError(EventStream.Parse(body))) == [];
    ReceiveThenClose(p, body, now, codec);
    assert All([], ChatPage.IsJsSpace);
  }

  /**
   * With the framing as written, the page receives the data of the one-line
   * deltas before a delta whose second line is `event: error`, and nothing
   * from it or after it.
   */
  lemma ErrorDeltaCutsData(before: seq<string>, v: string, after: seq<string>)
    requires QueryRoute.Each(EventStream.OneLine, before) && EventStream.OneLine(v)
    ensures var body := QueryRoute.EventBody(before + [v + "\n" + ("event: " + "error")] + after);
      EventData(BeforeError(EventStream.Parse(body))) == NonEmpty(before)
  {
    var body := QueryRoute.EventBody(before + [v + "\n" + ("event: " + "error")] + after);
    var m := QueryRoute.Messages(NonEmpty(before), "");
    var e := EventStream.Event("error", v, "");
    var events := EventStream.Parse(body);
    assert EventStream.OneLine("error");
    QueryRoute.RetypedFrameInBody(before, v, "error", after);
    assert events == m + [e] + events[|m| + 1..];
    MessagesTyped(NonEmpty(before), "");
    ErrorCutsOff(m, e, events[|m| + 1..]);
    ReceivedMessages(NonEmpty(before), "");
  }

  /**
   * With the framing as written, a delta whose second line is `event: error`
   * ends the answer early: `onerror` commits what the one-line deltas before
   * it delivered, and nothing after it reaches the page. The deltas `a`,
   * then `x`, line feed, `event: error`, then `b` commit `a`.
   */
  lemma ErrorDeltaClosesEarly(p: ChatPage.Page, before: seq<string>, v: string, after: seq<string>, now: nat,
                              codec: ChatPage.HistoryCodec)
    requires p.live.Some? && p.live.value.buffer == ""
    requires QueryRoute.Each(EventStream.OneLine, before) && EventStream.OneLine(v)
    ensures var h := p.live.value.handle;
      var body := QueryRoute.EventBody(before + [v + "\n" + ("event: " + "error")] + after);
      var r := ChatPage.Run(p, Received(h, body) + [ChatPage.Close(h, now)], codec);
      r.messages == p.messages + [Committed(Concat(before), now)]
  {
    var body := QueryRoute.EventBody(before + [v + "\n" + ("event: " + "error")] + after);
    ErrorDeltaCutsData(before, v, after);
    NonEmptyShape(before);
    ReceiveThenClose(p, body, now, codec);
  }
}

=== FILE: query_route.dfy ===
/**
 * The streaming endpoint of the backend (backend/app/routes/query.py): which
 * question is asked, and how the deltas of the completion service are framed
 * as a `text/event-stream` response body.
 *
 * The framer as written puts each delta on one `data:` line. A delta with a
 * line break in it is then cut by the browser's event-stream parser: the part
 * after the first line break is read as other fields and lost.
 * `Frame`/`EventBody` model the code as written; `SafeFrame`/`SafeEventBody`
 * are the corrected framing, one `data:` line per line of the delta, which
 * the end-to-end model uses.
 */
module QueryRoute {
  import opened Wrappers
  import opened Text
  import opened EventStream

  // ---------------------------------------------------------------------------
  // Question selection
  // ---------------------------------------------------------------------------

  /** The JSON body of a POST request. */
  datatype QueryRequest = QueryRequest(question: string)

  /**
   * The question: the query-string parameter when it is present and not
   * empty, otherwise the body's question when there is a body, otherwise the
   * empty string.
   */
  function QuestionText(param: Option<string>, body: Option<QueryRequest>): (q: string)
    ensures param.Some? && param.value != "" ==> q == param.value
    ensures (param.None? || param.value == "") && body.Some? ==> q == body.value.question
    ensures (param.None? || param.value == "") && body.None? ==> q == ""
  {
    if param.Some? && param.value != "" then param.value
    else if body.Some? then body.value.question
    else ""
  }

  // ---------------------------------------------------------------------------
  // Framing, as written
  // ---------------------------------------------------------------------------

  /** The frame of one delta: `data: <chunk>` and a blank line. */
  function Frame(chunk: string): string {
    "data: " + chunk + "\n\n"
  }

  /** The frames `event_generator` yields: one per non-empty delta, in order. */
  function EventFrames(chunks: seq<string>): (frames: seq<string>)
    ensures |frames| == |NonEmpty(chunks)|
    ensures forall k | 0 <= k < |frames| :: frames[k] == Frame(NonEmpty(chunks)[k])
  {
    Map(Frame, NonEmpty(chunks))
  }

  /** The response body: the frames, back to back. */
  function EventBody(chunks: seq<string>): string {
    Concat(EventFrames(chunks))
  }

  /**
   * `event_generator` is incremental: each further delta adds one frame when
   * it is not empty and nothing when it is.
   */
  lemma EventFramesSnoc(chunks: seq<string>, chunk: string)
    ensures chunk == "" ==> EventFrames(chunks + [chunk]) == EventFrames(chunks)
    ensures chunk != "" ==> EventFrames(chunks + [chunk]) == EventFrames(chunks) + [Frame(chunk)]
  {
    NonEmptyAppend(chunks, [chunk]);
    assert NonEmpty([chunk]) == NonEmpty([]) + (if chunk == "" then [] else [chunk]);
    MapAppend(Frame, NonEmpty(chunks), NonEmpty([chunk]));
  }

  /** The `message` events carrying the given data, in order, all with last event id `id`. */
  function Messages(data: seq<string>, id: string): (events: seq<Event>)
    ensures |events| == |data|
  {
    if data == [] then []
    else Messages(data[..|data| - 1], id) + [Event("message", data[|data| - 1], id)]
  }

  /** Every delta satisfies `ok`. */
  predicate Each(ok: string -> bool, chunks: seq<string>) {
    forall k | 0 <= k < |chunks| :: ok(chunks[k])
  }

  /**
   * `frame` delivers every delta satisfying `ok`: sent between events, the
   * frame makes the parser dispatch exactly one `message` event whose data is
   * the delta, and nothing else.
   */
  ghost predicate DeliversEach(frame: string -> string, ok: string -> bool) {
    forall p: Parser, c: string {:trigger Run(p, frame(c))} :: Clean(p) && ok(c) ==>
      Run(p, frame(c)) == p.(events := p.events + [Event("message", c, p.lastEventId)])
  }

  /** Every frame starts with the `d` of `data:`, so no body starts with a byte order mark. */
  predicate StartsWithData(frame: string -> string, chunks: seq<string>) {
    forall k | 0 <= k < |chunks| :: frame(chunks[k]) != [] && frame(chunks[k])[0] == 'd'
  }

  /** Frames that each deliver their delta deliver a sequence of deltas, in order. */
  lemma {:induction false} RunFrames(frame: string -> string, ok: string -> bool, p: Parser, chunks: seq<string>)
    requires DeliversEach(frame, ok) && Clean(p) && Each(ok, chunks)
    ensures Run(p, Concat(Map(frame, chunks))) == p.(events := p.events + Messages(chunks, p.lastEventId))
    decreases |chunks|
  {
    if chunks == [] {
      assert p.events + [] == p.events;
    } else {
      var init, last := chunks[..|chunks| - 1], chunks[|chunks| - 1];
      assert chunks == init + [last];
      assert Each(ok, init) by {
        forall k | 0 <= k < |init| ensures ok(init[k]) {
          assert init[k] == chunks[k];
        }
      }
      RunFrames(frame, ok, p, init);
      var body, f := Concat(Map(frame, init)), frame(last);
      var before := Messages(init, p.lastEventId);
      var e := Event("message", last, p.lastEventId);
      var q := p.(events := p.events + before);
      assert Concat(Map(frame, chunks)) == body + f by {
        MapSnoc(frame, init, last);
        ConcatSnoc(Map(frame, init), f);
      }
      assert Run(p, body + f) == Run(q, f) by {
        RunAppend(p, body, f);
      }
      assert Run(q, f) == q.(events := q.events + [e]);
      assert q.events + [e] == p.events + Messages(chunks, p.lastEventId) by {
        assert Messages(chunks, p.lastEventId) == before + [e];
      }
    }
  }

  /** Dropping the empty deltas keeps every remaining delta acceptable to `ok` and `frame`. */
  lemma NonEmptyKeeps(frame: string -> string, ok: string -> bool, chunks: seq<string>)
    requires Each(ok, chunks) && StartsWithData(frame, chunks)
    ensures Each(ok, NonEmpty(chunks)) && StartsWithData(frame, NonEmpty(chunks))
  {
    var cs := NonEmpty(chunks);
    NonEmptyShape(chunks);
    forall k | 0 <= k < |cs| ensures ok(cs[k]) && frame(cs[k]) != [] && frame(cs[k])[0] == 'd' {
      var j :| 0 <= j < |chunks| && chunks[j] == cs[k];
    }
  }

  /** A body whose frames start with `d` has no byte order mark to skip. */
  lemma NoByteOrderMark(frame: string -> string, chunks: seq<string>)
    requires StartsWithData(frame, chunks)
    ensures Parse(Concat(Map(frame, chunks))) == Run(Initial, Concat(Map(frame, chunks))).events
  {
    if chunks != [] {
      assert [chunks[0]] + chunks[1..] == chunks;
      MapCons(frame, chunks[0], chunks[1..]);
      ConcatCons(frame(chunks[0]), Map(frame, chunks[1..]));
    }
  }

  /**
   * A body of frames that each deliver their delta parses into one `message`
   * event per non-empty delta, in order.
   */
  lemma BodyRoundTrip(frame: string -> string, ok: string -> bool, chunks: seq<string>)
    requires DeliversEach(frame, ok) && Each(ok, chunks) && StartsWithData(frame, chunks)
    ensures Parse(Concat(Map(frame, NonEmpty(chunks)))) == Messages(NonEmpty(chunks), "")
  {
    var cs := NonEmpty(chunks);
    NonEmptyKeeps(frame, ok, chunks);
    NoByteOrderMark(frame, cs);
    RunFrames(frame, ok, Initial, cs);
  }

  /** A one-line delta's frame is delivered whole. */
  lemma FrameDeliversEach()
    ensures DeliversEach(Frame, OneLine)
  {
    forall p: Parser, c: string | Clean(p) && OneLine(c)
      ensures Run(p, Frame(c)) == p.(events := p.events + [Event("message", c, p.lastEventId)])
    {
      assert Frame(c) == "data: " + c + "\n" + "\n";
      DataEvent(p, c);
    }
  }

  /**
   * When no delta contains CR or LF, the browser parses the response body
   * into exactly one `message` event per non-empty delta, in order, whose
   * data is that delta.
   */
  lemma EventBodyRoundTrip(chunks: seq<string>)
    requires Each(OneLine, chunks)
    ensures Parse(EventBody(chunks)) == Messages(NonEmpty(chunks), "")
  {
    FrameDeliversEach();
    BodyRoundTrip(Frame, OneLine, chunks);
  }

  /** The frame of `v`, line feed, `w` is a `data:` line for `v`, the line `w`, and a blank line. */
  lemma FrameOfTwoLines(v: string, w: string)
    ensures Frame(v + "\n" + w) == ("data: " + v + "\n") + (w + "\n") + "\n"
  {
    assert "\n\n" == "\n" + "\n";
  }

  /**
   * The defect of the framing as written: a delta made of two lines `v` and
   * `w`, where `w` names no known field, reaches the browser as the data `v`
   * alone; `w` is taken for the name of an unknown field and ignored. The
   * delta `"a\nb"` is such a delta.
   */
  lemma FrameLosesTextAfterLineFeed(v: string, w: string)
    requires OneLine(v) && OneLine(w)
    requires w != [] && ':' !in w && w != "event" && w != "data" && w != "id"
    ensures Parse(Frame(v + "\n" + w)) == [Event("message", v, "")]
  {
    FrameOfTwoLines(v, w);
    DataThenIgnoredLine(v, w);
    assert Frame(v + "\n" + w)[0] == 'd';
  }

  /**
   * The text after a line feed is read as field lines, so it is not always
   * lost: a delta made of a line `v` and a line `data: <w>` arrives as one
   * `message` whose data is `v`, a line feed and `w` — the prefix `data: `
   * is gone from the text.
   */
  lemma FrameMergesDataLine(v: string, w: string)
    requires OneLine(v) && OneLine(w)
    ensures Parse(Frame(v + "\n" + ("data: " + w))) == [Event("message", v + "\n" + w, "")]
  {
    var l := "data: " + w;
    FrameOfTwoLines(v, l);
    var s1, s2 := "data: " + v + "\n", l + "\n";
    var q1 := Initial.(data := v + "\n");
    var q2 := q1.(data := v + "\n" + w + "\n");
    assert Run(Initial, s1) == q1 by {
      RunDataLine(Initial, v);
      assert Initial.data + v + "\n" == v + "\n";
    }
    assert Run(q1, s2) == q2 by {
      RunDataLine(q1, w);
    }
    assert Run(Initial, s1 + s2 + "\n") == Run(q2, "\n") by {
      RunAppend(Initial, s1 + s2, "\n");
      RunAppend(Initial, s1, s2);
    }
    RunBlankLine(q2);
    assert q2.data[..|q2.data| - 1] == v + "\n" + w;
    assert Frame(v + "\n" + l)[0] == 'd';
  }

  /**
   * Between events, the frame as written of a line `v` followed by the line
   * `event: <t>` dispatches one event of type `t` with data `v`, and leaves
   * the parser between events.
   */
  lemma RunRetypedFrame(p: Parser, v: string, t: string)
    requires Clean(p) && OneLine(v) && OneLine(t) && t != []
    ensures Run(p, Frame(v + "\n" + ("event: " + t))) == p.(events := p.events + [Event(t, v, p.lastEventId)])
  {
    var w := "event: " + t;
    FrameOfTwoLines(v, w);
    var s1, s2 := "data: " + v + "\n", w + "\n";
    var q1 := p.(data := v + "\n");
    var q2 := q1.(eventType := t);
    assert Run(p, s1) == q1 by {
      RunDataLine(p, v);
      assert p.data + v + "\n" == v + "\n";
    }
    assert Run(q1, s2) == q2 by {
      RunEventLine(q1, t);
    }
    assert Run(p, s1 + s2 + "\n") == Run(q2, "\n") by {
      RunAppend(p, s1 + s2, "\n");
      RunAppend(p, s1, s2);
    }
    RunBlankLine(q2);
    assert q2.data[..|q2.data| - 1] == v;
  }

  /**
   * The same defect lets a delta retype its own event: a delta made of a
   * line `v` and a line `event: <t>` reaches the browser as an event of
   * type `t` instead of `message`.
   */
  lemma FrameRetypesEvent(v: string, t: string)
    requires OneLine(v) && OneLine(t) && t != []
    ensures Parse(Frame(v + "\n" + ("event: " + t))) == [Event(t, v, "")]
  {
    RunRetypedFrame(Initial, v, t);
    assert Frame(v + "\n" + ("event: " + t))[0] == 'd';
  }

  /** The response body of a list of deltas is empty or starts with the `d` of `data:`. */
  lemma EventBodyStart(chunks: seq<string>)
    ensures EventBody(chunks) == [] || EventBody(chunks)[0] == 'd'
  {
    var cs := NonEmpty(chunks);
    if cs != [] {
      assert [cs[0]] + cs[1..] == cs;
      MapCons(Frame, cs[0], cs[1..]);
      ConcatCons(Frame(cs[0]), Map(Frame, cs[1..]));
    }
  }

  /** The body of deltas sent one after another is the bodies of the parts, back to back. */
  lemma EventBodyAppend(a: seq<string>, b: seq<string>)
    ensures EventBody(a + b) == EventBody(a) + EventBody(b)
  {
    NonEmptyAppend(a, b);
    MapAppend(Frame, NonEmpty(a), NonEmpty(b));
    ConcatAppend(Map(Frame, NonEmpty(a)), Map(Frame, NonEmpty(b)));
  }

  /** The body of one non-empty delta is that delta's frame. */
  lemma EventBodyOfOne(delta: string)
    requires delta != []
    ensures EventBody([delta]) == Frame(delta)
  {
    assert NonEmpty([delta]) == NonEmpty([]) + [delta];
    assert EventFrames([delta]) == [Frame(delta)];
    ConcatCons(Frame(delta), []);
    assert [Frame(delta)] + [] == [Frame(delta)];
  }

  /** The body of the deltas before, one non-empty delta, and the deltas after. */
  lemma EventBodySplit(before: seq<string>, delta: string, after: seq<string>)
    requires delta != []
    ensures EventBody(before + [delta] + after) == EventBody(before) + Frame(delta) + EventBody(after)
  {
    EventBodyAppend(before + [delta], after);
    EventBodyAppend(before, [delta]);
    EventBodyOfOne(delta);
  }

  /** The body of one-line deltas leaves the parser between events, with one `message` per non-empty delta. */
  lemma EventBodyRun(chunks: seq<string>)
    requires Each(OneLine, chunks)
    ensures Run(Initial, EventBody(chunks)) == Initial.(events := Messages(NonEmpty(chunks), ""))
  {
    FrameDeliversEach();
    assert StartsWithData(Frame, chunks) by {
      forall k | 0 <= k < |chunks| ensures Frame(chunks[k]) != [] && Frame(chunks[k])[0] == 'd' {
      }
    }
    NonEmptyKeeps(Frame, OneLine, chunks);
    RunFrames(Frame, OneLine, Initial, NonEmpty(chunks));
    assert Initial.events + Messages(NonEmpty(chunks), "") == Messages(NonEmpty(chunks), "");
  }

  /**
   * A retyping delta in the middle of a stream: the one-line deltas before
   * it arrive as `message` events, then comes the event of type `t`,
   * whatever the deltas after it are.
   */
  lemma RetypedFrameInBody(before: seq<string>, v: string, t: string, after: seq<string>)
    requires Each(OneLine, before) && OneLine(v) && OneLine(t) && t != []
    ensures Messages(NonEmpty(before), "") + [Event(t, v, "")]
         <= Parse(EventBody(before + [v + "\n" + ("event: " + t)] + after))
  {
    var d := v + "\n" + ("event: " + t);
    var b1, f, b2 := EventBody(before), Frame(d), EventBody(after);
    EventBodySplit(before, d, after);
    var m := Messages(NonEmpty(before), "");
    var q := Initial.(events := m);
    EventBodyRun(before);
    RunRetypedFrame(q, v, t);
    var q2 := q.(events := m + [Event(t, v, "")]);
    assert Run(Initial, b1 + f + b2) == Run(q2, b2) by {
      RunAppend(Initial, b1 + f, b2);
      RunAppend(Initial, b1, f);
    }
    RunExtendsEvents(q2, b2);
    EventBodyStart(before);
    assert f[0] == 'd';
    BodyStartsWithData(b1, f, b2);
  }

  /** A body whose frames start with `d` has no byte order mark to skip. */
  lemma BodyStartsWithData(b1: string, f: string, b2: string)
    requires b1 == [] || b1[0] == 'd'
    requires f != [] && f[0] == 'd'
    ensures Parse(b1 + f + b2) == Run(Initial, b1 + f + b2).events
  {
    if b1 == [] {
      assert b1 + f + b2 == f + b2;
    }
  }

  /** A `data:` line, a line naming no known field, and a blank line make one event. */
  lemma DataThenIgnoredLine(v: string, name: string)
    requires OneLine(v) && OneLine(name)
    requires name != [] && ':' !in name && name != "event" && name != "data" && name != "id"
    ensures Run(Initial, ("data: " + v + "\n") + (name + "\n") + "\n").events == [Event("message", v, "")]
  {
    var s1, s2 := "data: " + v + "\n", name + "\n";
    var q := Initial.(data := v + "\n");
    assert Run(Initial, s1) == q by {
      RunDataLine(Initial, v);
      assert Initial.data + v + "\n" == v + "\n";
    }
    assert Run(q, s2) == q by {
      IgnoredLine(q, name);
    }
    assert Run(Initial, s1 + s2 + "\n") == Run(q, "\n") by {
      RunAppend(Initial, s1 + s2, "\n");
      RunAppend(Initial, s1, s2);
    }
    assert Run(q, "\n").events == [Event("message", v, "")] by {
      RunBlankLine(q);
      assert q.data[..|q.data| - 1] == v;
    }
  }

  // ---------------------------------------------------------------------------
  // Framing, corrected
  // ---------------------------------------------------------------------------

  /** One `data:` line. */
  function DataLine(value: string): string {
    "data: " + value + "\n"
  }

  /** A line and its line feed, as the parser adds it to the data buffer. */
  function Terminated(value: string): string {
    value + "\n"
  }

  /** The corrected frame: one `data:` line per line of the delta, then a blank line. */
  function SafeFrame(chunk: string): string {
    Concat(Map(DataLine, Split(chunk, '\n'))) + "\n"
  }

  /** The corrected generator's frames. */
  function SafeEventFrames(chunks: seq<string>): (frames: seq<string>)
    ensures |frames| == |NonEmpty(chunks)|
    ensures forall k | 0 <= k < |frames| :: frames[k] == SafeFrame(NonEmpty(chunks)[k])
  {
    Map(SafeFrame, NonEmpty(chunks))
  }

  function SafeEventBody(chunks: seq<string>): string {
    Concat(SafeEventFrames(chunks))
  }

  /** Consecutive `data:` lines accumulate their values, each with a line feed. */
  lemma {:induction false} RunDataLines(p: Parser, values: seq<string>)
    requires p.line == [] && !p.afterCR && Each(OneLine, values)
    ensures Run(p, Concat(Map(DataLine, values))) == p.(data := p.data + Concat(Map(Terminated, values)))
    decreases |values|
  {
    if values == [] {
      assert p.data + [] == p.data;
    } else {
      var init, last := values[..|values| - 1], values[|values| - 1];
      assert values == init + [last];
      assert Each(OneLine, init) by {
        forall k | 0 <= k < |init| ensures OneLine(init[k]) {
          assert init[k] == values[k];
        }
      }
      MapSnoc(DataLine, init, last);
      MapSnoc(Terminated, init, last);
      ConcatSnoc(Map(DataLine, init), DataLine(last));
      ConcatSnoc(Map(Terminated, init), Terminated(last));
      RunAppend(p, Concat(Map(DataLine, init)), DataLine(last));
      RunDataLines(p, init);
      var q := p.(data := p.data + Concat(Map(Terminated, init)));
      RunDataLine(q, last);
      assert q.data + last + "\n" == p.data + (Concat(Map(Terminated, init)) + Terminated(last));
    }
  }

  /** Terminating every line is joining the lines and terminating the last. */
  lemma {:induction false} TerminatedJoin(values: seq<string>)
    requires |values| >= 1
    ensures Concat(Map(Terminated, values)) == Join(values, '\n') + "\n"
    decreases |values|
  {
    var head, tail := values[0], values[1..];
    assert Concat(Map(Terminated, values)) == Terminated(head) + Concat(Map(Terminated, tail)) by {
      assert values == [head] + tail;
      MapCons(Terminated, head, tail);
      ConcatCons(Terminated(head), Map(Terminated, tail));
    }
    if tail != [] {
      var rest := Join(tail, '\n');
      assert Concat(Map(Terminated, tail)) == rest + "\n" by {
        TerminatedJoin(tail);
      }
      assert Join(values, '\n') == head + "\n" + rest;
      assert (head + "\n") + (rest + "\n") == (head + "\n" + rest) + "\n";
    } else {
      assert Concat(Map(Terminated, tail)) == [];
      assert Join(values, '\n') == head;
    }
  }

  /**
   * The corrected frame of a delta without CR, sent between events, arrives
   * as exactly one `message` event whose data is the whole delta, line
   * feeds included.
   */
  lemma SafeFrameDelivers(p: Parser, chunk: string)
    requires Clean(p) && '\r' !in chunk
    ensures Run(p, SafeFrame(chunk)) == p.(events := p.events + [Event("message", chunk, p.lastEventId)])
  {
    var pieces := Split(chunk, '\n');
    SplitPiecesFree(chunk, '\n');
    SplitPiecesWithin(chunk, '\n', '\r');
    RunAppend(p, Concat(Map(DataLine, pieces)), "\n");
    RunDataLines(p, pieces);
    TerminatedJoin(pieces);
    JoinSplit(chunk, '\n');
    var q := p.(data := chunk + "\n");
    assert p.data + (chunk + "\n") == chunk + "\n";
    RunBlankLine(q);
    assert q.data[..|q.data| - 1] == chunk;
  }

  /** For a delta without line terminators the corrected frame is the frame as written. */
  lemma SafeFrameAgrees(chunk: string)
    requires OneLine(chunk)
    ensures SafeFrame(chunk) == Frame(chunk)
  {
    SplitNoSeparator(chunk, '\n');
    MapCons(DataLine, chunk, []);
    ConcatCons(DataLine(chunk), []);
  }

  predicate NoCR(chunk: string) {
    '\r' !in chunk
  }

  /** Every delta without CR, line feeds included, is delivered whole by its corrected frame. */
  lemma SafeFrameDeliversEach()
    ensures DeliversEach(SafeFrame, NoCR)
  {
    forall p: Parser, c: string | Clean(p) && NoCR(c)
      ensures Run(p, SafeFrame(c)) == p.(events := p.events + [Event("message", c, p.lastEventId)])
    {
      SafeFrameDelivers(p, c);
    }
  }

  /** A corrected frame starts with its first `data:` line. */
  lemma SafeFrameStart(chunk: string)
    ensures SafeFrame(chunk) != [] && SafeFrame(chunk)[0] == 'd'
  {
    var pieces := Split(chunk, '\n');
    assert [pieces[0]] + pieces[1..] == pieces;
    MapCons(DataLine, pieces[0], pieces[1..]);
    ConcatCons(DataLine(pieces[0]), Map(DataLine, pieces[1..]));
  }

  /**
   * With the corrected framing every non-empty delta without CR — line feeds
   * allowed — reaches the browser whole, as one `message` event, in order.
   */
  lemma SafeEventBodyRoundTrip(chunks: seq<string>)
    requires Each(NoCR, chunks)
    ensures Parse(SafeEventBody(chunks)) == Messages(NonEmpty(chunks), "")
  {
    SafeFrameDeliversEach();
    forall k | 0 <= k < |chunks| ensures SafeFrame(chunks[k]) != [] && SafeFrame(chunks[k])[0] == 'd' {
      SafeFrameStart(chunks[k]);
    }
    BodyRoundTrip(SafeFrame, NoCR, chunks);
  }
}

=== FILE: text.dfy ===
/**
 * String operations shared by the frontend and backend models: concatenation
 * of fragments, stripping a class of characters from both ends (JavaScript's
 * `trim`, Python's `strip`), splitting on a separator (Python's `str.split`)
 * and the decimal rendering of a number (`Number.prototype.toString`).
 */
module Text {

  /** Every character of `s` satisfies `p`. */
  predicate All(s: string, p: char -> bool) {
    forall k | 0 <= k < |s| :: p(s[k])
  }

  lemma AllConcat(a: string, b: string, p: char -> bool)
    ensures All(a + b, p) <==> All(a, p) && All(b, p)
  {
    if All(a, p) && All(b, p) {
      forall k | 0 <= k < |a + b|
        ensures p((a + b)[k])
      {
        if k < |a| { assert (a + b)[k] == a[k]; } else { assert (a + b)[k] == b[k - |a|]; }
      }
    }
    if All(a + b, p) {
      forall k | 0 <= k < |a|
        ensures p(a[k])
      {
        assert (a + b)[k] == a[k];
      }
      forall k | 0 <= k < |b|
        ensures p(b[k])
      {
        assert (a + b)[|a| + k] == b[k];
      }
    }
  }

  // ---------------------------------------------------------------------------
  // Concatenation of fragments, in order and without separator
  // ---------------------------------------------------------------------------

  /** `parts[0] + parts[1] + ... + parts[|parts| - 1]`. */
  function Concat<T>(parts: seq<seq<T>>): seq<T> {
    if parts == [] then [] else Concat(parts[..|parts| - 1]) + parts[|parts| - 1]
  }

  lemma {:induction false} ConcatAppend<T>(a: seq<seq<T>>, b: seq<seq<T>>)
    ensures Concat(a + b) == Concat(a) + Concat(b)
    decreases |b|
  {
    if b == [] {
      assert a + b == a;
    } else {
      var b', z := b[..|b| - 1], b[|b| - 1];
      assert (a + b)[..|a + b| - 1] == a + b';
      assert (a + b)[|a + b| - 1] == z;
      ConcatAppend(a, b');
      calc {
        Concat(a + b);
        Concat(a + b') + z;
        (Concat(a) + Concat(b')) + z;
        Concat(a) + (Concat(b') + z);
      }
    }
  }

  /** Appending one fragment appends its text. */
  lemma ConcatSnoc<T>(parts: seq<seq<T>>, last: seq<T>)
    ensures Concat(parts + [last]) == Concat(parts) + last
  {
    assert (parts + [last])[..|parts|] == parts;
  }

  /** Prepending one fragment prepends its text. */
  lemma ConcatCons<T>(first: seq<T>, parts: seq<seq<T>>)
    ensures Concat([first] + parts) == first + Concat(parts)
  {
    ConcatAppend([first], parts);
    assert [first][..0] == [];
  }

  /** `f` applied to every element, in order. */
  function Map<A, B>(f: A -> B, xs: seq<A>): (r: seq<B>)
    ensures |r| == |xs|
    ensures forall k | 0 <= k < |xs| :: r[k] == f(xs[k])
  {
    seq(|xs|, k requires 0 <= k < |xs| => f(xs[k]))
  }

  lemma MapAppend<A, B>(f: A -> B, xs: seq<A>, ys: seq<A>)
    ensures Map(f, xs + ys) == Map(f, xs) + Map(f, ys)
  {
    assert forall k | 0 <= k < |xs| :: (xs + ys)[k] == xs[k];
    assert forall k | |xs| <= k < |xs| + |ys| :: (xs + ys)[k] == ys[k - |xs|];
  }

  lemma MapCons<A, B>(f: A -> B, x: A, xs: seq<A>)
    ensures Map(f, [x] + xs) == [f(x)] + Map(f, xs)
  {
    MapAppend(f, [x], xs);
  }

  lemma MapSnoc<A, B>(f: A -> B, xs: seq<A>, x: A)
    ensures Map(f, xs + [x]) == Map(f, xs) + [f(x)]
  {
    MapAppend(f, xs, [x]);
  }

  /** The fragments that are not empty, in their original order. */
  function NonEmpty(parts: seq<string>): seq<string> {
    if parts == [] then []
    else
      var last := parts[|parts| - 1];
      NonEmpty(parts[..|parts| - 1]) + (if last == "" then [] else [last])
  }

  /** Dropping the empty fragments keeps every other fragment and changes nothing in the concatenation. */
  lemma {:induction false} NonEmptyShape(parts: seq<string>)
    ensures var r := NonEmpty(parts);
      && |r| <= |parts|
      && (forall k | 0 <= k < |r| :: r[k] != "" && r[k] in parts)
      && Concat(r) == Concat(parts)
  {
    if parts != [] {
      var init, last := parts[..|parts| - 1], parts[|parts| - 1];
      NonEmptyShape(init);
      var tail := if last == "" then [] else [last];
      ConcatAppend(NonEmpty(init), tail);
      assert forall x | x in init :: x in parts;
    }
  }

  lemma NonEmptyAppend(a: seq<string>, b: seq<string>)
    ensures NonEmpty(a + b) == NonEmpty(a) + NonEmpty(b)
    decreases |b|
  {
    if b == [] {
      assert a + b == a;
    } else {
      assert (a + b)[..|a + b| - 1] == a + b[..|b| - 1];
      NonEmptyAppend(a, b[..|b| - 1]);
    }
  }

  // ---------------------------------------------------------------------------
  // Stripping a class of characters from both ends
  // ---------------------------------------------------------------------------

  /** `s` without its longest prefix of characters satisfying `drop`. */
  function StripLeft(s: string, drop: char -> bool): string
    decreases |s|
  {
    if s != [] && drop(s[0]) then StripLeft(s[1..], drop) else s
  }

  /** `s` without its longest suffix of characters satisfying `drop`. */
  function StripRight(s: string, drop: char -> bool): string
    decreases |s|
  {
    if s != [] && drop(s[|s| - 1]) then StripRight(s[..|s| - 1], drop) else s
  }

  /** `StripLeft` removes a droppable prefix and stops at the first character that is kept. */
  lemma {:induction false} StripLeftSpec(s: string, drop: char -> bool)
    ensures var r := StripLeft(s, drop);
      && |r| <= |s| && r == s[|s| - |r|..]
      && All(s[..|s| - |r|], drop)
      && (r == [] || !drop(r[0]))
    decreases |s|
  {
    if s != [] && drop(s[0]) {
      StripLeftSpec(s[1..], drop);
      var r := StripLeft(s[1..], drop);
      assert s[..|s| - |r|] == [s[0]] + s[1..][..|s| - 1 - |r|];
      AllConcat([s[0]], s[1..][..|s| - 1 - |r|], drop);
    }
  }

  /** `StripRight` removes a droppable suffix and stops at the last character that is kept. */
  lemma {:induction false} StripRightSpec(s: string, drop: char -> bool)
    ensures var r := StripRight(s, drop);
      && |r| <= |s| && r == s[..|r|]
      && All(s[|r|..], drop)
      && (r == [] || !drop(r[|r| - 1]))
    decreases |s|
  {
    if s != [] && drop(s[|s| - 1]) {
      StripRightSpec(s[..|s| - 1], drop);
      var r := StripRight(s[..|s| - 1], drop);
      assert s[|r|..] == s[..|s| - 1][|r|..] + [s[|s| - 1]];
      AllConcat(s[..|s| - 1][|r|..], [s[|s| - 1]], drop);
    }
  }

  /** `r` is `s[i..j]`, and everything cut off on either side satisfies `drop`. */
  predicate CutAt(s: string, r: string, drop: char -> bool, i: nat, j: nat) {
    && i <= j <= |s|
    && r == s[i..j]
    && All(s[..i], drop)
    && All(s[j..], drop)
  }

  /** Cutting twice is cutting once, at the combined positions. */
  lemma CutCompose(s: string, t: string, r: string, drop: char -> bool, i1: nat, j1: nat, i2: nat, j2: nat)
    requires CutAt(s, t, drop, i1, j1) && CutAt(t, r, drop, i2, j2)
    ensures CutAt(s, r, drop, i1 + i2, i1 + j2)
  {
    var i, j := i1 + i2, i1 + j2;
    forall k | 0 <= k < |r|
      ensures r[k] == s[i + k]
    {
      assert r[k] == t[i2 + k];
    }
    assert r == s[i..j];
    forall k | 0 <= k < i
      ensures drop(s[k])
    {
      if k < i1 {
        assert s[..i1][k] == s[k];
      } else {
        assert t[..i2][k - i1] == s[k];
      }
    }
    forall k | j <= k < |s|
      ensures drop(s[k])
    {
      if k < j1 {
        assert t[j2..][k - j] == s[k];
      } else {
        assert s[j1..][k - j1] == s[k];
      }
    }
    assert All(s[..i], drop) by {
      forall k | 0 <= k < i ensures drop(s[..i][k]) { assert s[..i][k] == s[k]; }
    }
    assert All(s[j..], drop) by {
      forall k | 0 <= k < |s| - j ensures drop(s[j..][k]) { assert s[j..][k] == s[j + k]; }
    }
  }

  /** `r` is `s` cut at `i` and `j` past every droppable end character: neither end of `r` is droppable. */
  predicate StripAt(s: string, r: string, drop: char -> bool, i: nat, j: nat) {
    && CutAt(s, r, drop, i, j)
    && (r == [] || (!drop(r[0]) && !drop(r[|r| - 1])))
  }

  /**
   * `r` is what remains of `s` once every leading and trailing character
   * satisfying `drop` is removed: a contiguous slice of `s` whose removed
   * prefix and suffix are droppable and whose ends are not.
   */
  ghost predicate IsStripOf(s: string, r: string, drop: char -> bool) {
    exists i: nat, j: nat :: StripAt(s, r, drop, i, j)
  }

  /** Both ends stripped, as JavaScript's `trim` and Python's `strip` do. */
  function Strip(s: string, drop: char -> bool): string {
    StripRight(StripLeft(s, drop), drop)
  }

  /** `Strip` cuts off exactly the droppable ends and nothing else. */
  lemma StripIsStripOf(s: string, drop: char -> bool)
    ensures IsStripOf(s, Strip(s, drop), drop)
  {
    var l := StripLeft(s, drop);
    var r := StripRight(l, drop);
    StripLeftSpec(s, drop);
    StripRightSpec(l, drop);
    var i := |s| - |l|;
    assert CutAt(s, l, drop, i, |s|) by {
      assert s[|s|..] == [];
    }
    assert CutAt(l, r, drop, 0, |r|) by {
      assert l[..0] == [];
    }
    CutCompose(s, l, r, drop, i, |s|, 0, |r|);
    assert r != [] ==> r[0] == l[0];
    assert StripAt(s, r, drop, i, i + |r|);
  }

  lemma StripAtUnique(s: string, r1: string, r2: string, drop: char -> bool, i1: nat, j1: nat, i2: nat, j2: nat)
    requires StripAt(s, r1, drop, i1, j1) && StripAt(s, r2, drop, i2, j2)
    ensures r1 == r2
  {
    if r1 != [] {
      assert s[i1] == r1[0] && s[j1 - 1] == r1[|r1| - 1];
    }
    if r2 != [] {
      assert s[i2] == r2[0] && s[j2 - 1] == r2[|r2| - 1];
    }
  }

  /** There is only one way to strip a string: `IsStripOf` is an independent definition of `Strip`. */
  lemma StripUnique(s: string, r1: string, r2: string, drop: char -> bool)
    requires IsStripOf(s, r1, drop) && IsStripOf(s, r2, drop)
    ensures r1 == r2
  {
    var i1: nat, j1: nat :| StripAt(s, r1, drop, i1, j1);
    var i2: nat, j2: nat :| StripAt(s, r2, drop, i2, j2);
    StripAtUnique(s, r1, r2, drop, i1, j1, i2, j2);
  }

  /** Neither end of a stripped string is droppable. */
  lemma StripEnds(s: string, drop: char -> bool)
    ensures var r := Strip(s, drop); r == [] || (!drop(r[0]) && !drop(r[|r| - 1]))
  {
    var r := Strip(s, drop);
    StripIsStripOf(s, drop);
    var i: nat, j: nat :| StripAt(s, r, drop, i, j);
  }

  /** Stripping leaves nothing exactly when every character is droppable. */
  lemma StripEmptyIffAll(s: string, drop: char -> bool)
    ensures Strip(s, drop) == [] <==> All(s, drop)
  {
    var r := Strip(s, drop);
    StripIsStripOf(s, drop);
    var i: nat, j: nat :| StripAt(s, r, drop, i, j);
    if r == [] {
      assert s == s[..i] + s[j..];
      AllConcat(s[..i], s[j..], drop);
    } else {
      assert s[i] == r[0];
    }
  }

  // ---------------------------------------------------------------------------
  // Splitting on a separator, as Python's `str.split(sep)`
  // ---------------------------------------------------------------------------

  /** The pieces of `s` between occurrences of `sep`; always at least one. */
  function Split(s: string, sep: char): (parts: seq<string>)
    ensures |parts| >= 1
    decreases |s|
  {
    if s == [] then [""]
    else
      var rest := Split(s[1..], sep);
      if s[0] == sep then [""] + rest
      else [[s[0]] + rest[0]] + rest[1..]
  }

  /** No piece holds the separator. */
  lemma {:induction false} SplitPiecesFree(s: string, sep: char)
    ensures forall k | 0 <= k < |Split(s, sep)| :: sep !in Split(s, sep)[k]
    decreases |s|
  {
    if s != [] {
      SplitPiecesFree(s[1..], sep);
      var rest := Split(s[1..], sep);
      if s[0] != sep {
        assert sep !in [s[0]] + rest[0];
        assert Split(s, sep) == [[s[0]] + rest[0]] + rest[1..];
      } else {
        assert Split(s, sep) == [""] + rest;
      }
    }
  }

  /** The pieces written out with `sep` between neighbours, as Python's `sep.join(parts)`. */
  function Join(parts: seq<string>, sep: char): string {
    if parts == [] then ""
    else if |parts| == 1 then parts[0]
    else parts[0] + [sep] + Join(parts[1..], sep)
  }

  /** A character that does not occur in the string occurs in none of its pieces. */
  lemma {:induction false} SplitPiecesWithin(s: string, sep: char, x: char)
    requires x !in s
    ensures forall k | 0 <= k < |Split(s, sep)| :: x !in Split(s, sep)[k]
    decreases |s|
  {
    if s != [] {
      assert x !in s[1..] by {
        assert forall c | c in s[1..] :: c in s;
      }
      SplitPiecesWithin(s[1..], sep, x);
      var rest := Split(s[1..], sep);
      if s[0] != sep {
        assert x !in [s[0]] + rest[0];
        assert Split(s, sep) == [[s[0]] + rest[0]] + rest[1..];
      } else {
        assert Split(s, sep) == [""] + rest;
      }
    }
  }

  /** Joining the pieces of a split gives back the string. */
  lemma {:induction false} JoinSplit(s: string, sep: char)
    ensures Join(Split(s, sep), sep) == s
    decreases |s|
  {
    if s != [] {
      var rest := Split(s[1..], sep);
      JoinSplit(s[1..], sep);
      if s[0] == sep {
        assert Split(s, sep) == [""] + rest;
        assert ([""] + rest)[1..] == rest;
      } else {
        var parts := [[s[0]] + rest[0]] + rest[1..];
        assert Split(s, sep) == parts;
        if |rest| == 1 {
          assert s[1..] == rest[0];
        } else {
          assert parts[1..] == rest[1..];
          assert s[1..] == rest[0] + [sep] + Join(rest[1..], sep);
        }
        assert s == [s[0]] + s[1..];
      }
    }
  }

  /** Splitting a join of separator-free pieces gives back the pieces. */
  lemma {:induction false} SplitJoin(parts: seq<string>, sep: char)
    requires |parts| >= 1
    requires forall k | 0 <= k < |parts| :: sep !in parts[k]
    ensures Split(Join(parts, sep), sep) == parts
    decreases |parts|, |parts[0]|
  {
    var p := parts[0];
    if p == [] {
      if |parts| > 1 {
        var tail := parts[1..];
        SplitJoin(tail, sep);
        assert Join(parts, sep) == [sep] + Join(tail, sep);
        assert ([sep] + Join(tail, sep))[1..] == Join(tail, sep);
        assert parts == [""] + tail;
      }
    } else {
      var parts' := [p[1..]] + parts[1..];
      assert forall k | 0 <= k < |parts'| :: sep !in parts'[k] by {
        forall k | 0 <= k < |parts'| ensures sep !in parts'[k] {
          if k == 0 {
            assert p == [p[0]] + p[1..];
          } else {
            assert parts'[k] == parts[k];
          }
        }
      }
      SplitJoin(parts', sep);
      assert p[0] != sep;
      var j := Join(parts, sep);
      if |parts| == 1 {
        assert j == p;
        assert j[1..] == Join(parts', sep);
      } else {
        assert parts'[1..] == parts[1..];
        assert j[1..] == Join(parts', sep);
      }
      assert j[0] == p[0];
      assert [p[0]] + p[1..] == p;
      assert parts'[1..] == parts[1..];
      assert [p] + parts[1..] == parts;
    }
  }

  /** A string without the separator is a single piece. */
  lemma {:induction false} SplitNoSeparator(s: string, sep: char)
    requires sep !in s
    ensures Split(s, sep) == [s]
    decreases |s|
  {
    if s != [] {
      SplitNoSeparator(s[1..], sep);
      assert [s[0]] + s[1..] == s;
    }
  }

  /** One step of `Split`, on a string given as its first character and the rest. */
  lemma SplitCons(c: char, rest: string, sep: char)
    ensures c == sep ==> Split([c] + rest, sep) == [""] + Split(rest, sep)
    ensures c != sep ==> Split([c] + rest, sep) == [[c] + Split(rest, sep)[0]] + Split(rest, sep)[1..]
  {
    assert ([c] + rest)[1..] == rest;
  }

  /** Prepending to the first piece of `x + y` is prepending to the first piece of `x`. */
  lemma HeadCons<T>(h: seq<T>, x: seq<seq<T>>, y: seq<seq<T>>)
    requires |x| >= 1
    ensures [h + (x + y)[0]] + (x + y)[1..] == ([h + x[0]] + x[1..]) + y
  {
    assert (x + y)[1..] == x[1..] + y;
  }

  /** The inductive step of `SplitAtSeparator`: one more character in front. */
  lemma SplitAtSeparatorStep(c: char, a: string, b: string, sep: char)
    requires Split(a + [sep] + b, sep) == Split(a, sep) + Split(b, sep)
    ensures Split([c] + (a + [sep] + b), sep) == Split([c] + a, sep) + Split(b, sep)
  {
    SplitCons(c, a + [sep] + b, sep);
    SplitCons(c, a, sep);
    if c != sep {
      HeadCons([c], Split(a, sep), Split(b, sep));
    }
  }

  /** Splitting at an occurrence of the separator splits the pieces there. */
  lemma {:induction false} SplitAtSeparator(a: string, b: string, sep: char)
    ensures Split(a + [sep] + b, sep) == Split(a, sep) + Split(b, sep)
    decreases |a|
  {
    if a == [] {
      assert a + [sep] + b == [sep] + b;
      SplitCons(sep, b, sep);
    } else {
      SplitAtSeparator(a[1..], b, sep);
      SplitAtSeparatorStep(a[0], a[1..], b, sep);
      assert [a[0]] + (a[1..] + [sep] + b) == a + [sep] + b;
      assert [a[0]] + a[1..] == a;
    }
  }

  // ---------------------------------------------------------------------------
  // Decimal rendering of a natural number, as `Number.prototype.toString()`
  // ---------------------------------------------------------------------------

  predicate IsDigit(c: char) {
    '0' <= c <= '9'
  }

  function Decimal(n: nat): (r: string)
    ensures r != []
    ensures All(r, IsDigit)
    decreases n
  {
    var d := (n % 10) as char + '0';
    if n < 10 then [d]
    else
      var r := Decimal(n / 10);
      AllConcat(r, [d], IsDigit);
      r + [d]
  }

  /** The number a string of decimal digits denotes. */
  function DecimalValue(s: string): nat
    requires All(s, IsDigit)
  {
    if s == [] then 0
    else
      var init := s[..|s| - 1];
      assert All(init, IsDigit) by { assert forall k | 0 <= k < |init| :: init[k] == s[k]; }
      10 * DecimalValue(init) + (s[|s| - 1] - '0') as nat
  }

  /** `Decimal` is injective: reading back the digits gives the number. */
  lemma {:induction false} DecimalRoundTrip(n: nat)
    ensures DecimalValue(Decimal(n)) == n
    decreases n
  {
    if n >= 10 {
      DecimalRoundTrip(n / 10);
      var r := Decimal(n);
      assert r[..|r| - 1] == Decimal(n / 10);
    }
  }
}

=== FILE: wrappers.dfy ===
/** An optional value: `None` for JavaScript's `null`/`undefined` and Python's `None`. */
module Wrappers {

  datatype Option<+T> = None | Some(value: T)

  /** The zero- or one-element sequence holding the value of `o`. */
  function ToSeq<T>(o: Option<T>): (r: seq<T>)
    ensures |r| <= 1
    ensures o.Some? <==> |r| == 1
    ensures o.Some? ==> r[0] == o.value
  {
    match o
    case Some(v) => [v]
    case None => []
  }
}
